=== FILE: README.md ===
# Sentiment analysis for a marketplace — a Dafny model

This project models the decision logic of a marketplace's sentiment analysis
system. Buyers comment on products. A Python service classifies each text as
`Positivo` or `Negativo`, and two Java backends act on the answer:

- the marketplace backend stores each comment with its analysis result;
- it flags a result as critical when it is negative at or above 0.8, and
  then raises a pending dashboard notification for the product's seller;
- sellers read notifications, mark them read and see per-seller statistics;
- a public API normalises the classifier's label, records every analysis
  (single or batched) and reports global statistics.

Everything is modelled with immutable datatypes and pure functions over
in-memory sequences, one per database table. The classifier is a function
parameter that either answers or fails. Probabilities and percentages are
exact `real`s. Java's `Math.round(y)` is `floor(y + 0.5)`.

Modules, in dependency order:

| module | file | models |
|---|---|---|
| `Common` | common.dfy | `Option`/`Result`, counting and filtering, lookup by id, next id |
| `Text` | text.dfy | ASCII case mapping, Java `trim` and Python `strip`, substring search |
| `Sentimentos` | sentimento.dfy | the `Sentimento` enum, `getLabel`, `fromLabel` |
| `Domain` | domain.dfy | the marketplace entities and status names |
| `Notificacoes` | notificacoes.dfy | `NotificacaoService` and the notification state machine |
| `Classificacao` | classificacao.dfy | the classifier as its callers see it |
| `Comentarios` | comentarios.dfy | `ComentarioService`: creation, analysis, critical rule, listings |
| `SentimentApi` | sentimentapi.dfy | the public API's `SentimentService`: `analisar`, `analisarBatch` |
| `Stats` | stats.dfy | `StatsService`: global counts, percentages, averages |
| `Dashboard` | dashboard.dfy | `DashboardService`: per-seller statistics and export |
| `DsService` | dsservice.dfy | the Python `/predict` endpoint and the model's heuristic fallback |
| `Pipeline` | pipeline.dfy | the backends running against the heuristic service |

Inputs the source takes from its environment are parameters of the model:

- the current time (`agora`);
- the batch's random UUID (`batchId`);
- per-item and total processing times;
- the classifier.

## Model

Source paths are relative to the repository root.

| member | source | states |
|---|---|---|
| Sentimentos.GetLabel | backend/sentiment-backend/src/main/java/com/sentimentapi/domain/enums/Sentimento.java:7-9 | the display labels are exactly "Positivo", "Negativo", "Neutro" |
| Sentimentos.FromLabel | backend/sentiment-backend/src/main/java/com/sentimentapi/domain/enums/Sentimento.java:25-28 | a null label gives NEUTRO; the function is total |
| Sentimentos.FromLabelGetLabel | backend/sentiment-backend/src/main/java/com/sentimentapi/domain/enums/Sentimento.java:7-35 | round trip: `fromLabel(s.getLabel()) == s` for every sentiment |
| Sentimentos.FromLabelName | backend/sentiment-backend/src/main/java/com/sentimentapi/domain/enums/Sentimento.java:6-35 | every constant name also reads back as its own sentiment |
| Sentimentos.FromLabelRecognises | backend/sentiment-backend/src/main/java/com/sentimentapi/domain/enums/Sentimento.java:30-35 | any whitespace around a label is ignored, and the rest is matched upper-cased against the synonym sets (POSITIVO/POSITIVE/POS/1, NEGATIVO/NEGATIVE/NEG/0) |
| Sentimentos.FromLabelIgnoresPadding | backend/sentiment-backend/src/main/java/com/sentimentapi/domain/enums/Sentimento.java:30 | padding a label with whitespace never changes its sentiment |
| Sentimentos.FromLabelCaseInsensitive | backend/sentiment-backend/src/main/java/com/sentimentapi/domain/enums/Sentimento.java:30 | labels that agree up to letter case give the same sentiment |
| Sentimentos.NormalizeCaseInsensitive | backend/sentiment-backend/src/main/java/com/sentimentapi/domain/enums/Sentimento.java:30 | the switch key depends only on the label's upper-case form |
| Sentimentos.NormalizeUnpadded | backend/sentiment-backend/src/main/java/com/sentimentapi/domain/enums/Sentimento.java:30 | a label without surrounding whitespace is only upper-cased |
| Sentimentos.FromLabelOfKey | backend/sentiment-backend/src/main/java/com/sentimentapi/domain/enums/Sentimento.java:30-36 | an unpadded label is looked up by its upper-case form |
| Sentimentos.FromLabelPaddedExample | backend/sentiment-backend/src/main/java/com/sentimentapi/domain/enums/Sentimento.java:30-33 | `" positivo "` gives POSITIVO |
| Sentimentos.FromLabelDigitExamples | backend/sentiment-backend/src/main/java/com/sentimentapi/domain/enums/Sentimento.java:33-34 | "1" gives POSITIVO and "0" gives NEGATIVO |
| Sentimentos.FromLabelUnknownExamples | backend/sentiment-backend/src/main/java/com/sentimentapi/domain/enums/Sentimento.java:35 | "" and "unknown" give NEUTRO |
| Sentimentos.Name | backend/sentiment-backend/src/main/java/com/sentimentapi/domain/enums/Sentimento.java:7-9 | the constant names are exactly POSITIVO, NEGATIVO, NEUTRO |
| Text.TrimUnique | backend/sentiment-backend/src/main/java/com/sentimentapi/domain/enums/Sentimento.java:30 | trimming removes exactly the maximal whitespace prefix and suffix |
| Text.UpperTrimCommute | backend/sentiment-backend/src/main/java/com/sentimentapi/domain/enums/Sentimento.java:30 | trimming and upper-casing commute |
| Text.ContainsIff | ds-service/app/main.py:21 | the substring test holds exactly when the marker occurs at some position |
| Text.StripPreservesMarker | ds-service/app/main.py:14-21 | stripping never changes whether a marker without surrounding whitespace occurs |
| Domain.StatusName | backend/sentiment-backend/src/main/java/br/com/hackathonone/sentiment_backend/service/NotificacaoService.java:124 | a status is written as PENDENTE or LIDA |
| Domain.StatusNameInjective | backend/sentiment-backend/src/main/java/br/com/hackathonone/sentiment_backend/service/NotificacaoService.java:124 | the written name identifies the status |
| Notificacoes.MensagemCritica | backend/sentiment-backend/src/main/java/br/com/hackathonone/sentiment_backend/service/NotificacaoService.java:37-42 | the message names the product and a sentiment that reads back as the result's, with the probability as a percentage |
| Notificacoes.CriarNotificacaoComentarioCritico | backend/sentiment-backend/src/main/java/br/com/hackathonone/sentiment_backend/service/NotificacaoService.java:34-57 | exactly one notification is appended: PENDENTE, channel DASHBOARD, the given seller and result, unsent, with a fresh id |
| Notificacoes.CriarThenFind | backend/sentiment-backend/src/main/java/br/com/hackathonone/sentiment_backend/service/NotificacaoService.java:53-56 | the created notification is the one found under its id |
| Notificacoes.CriarCount | backend/sentiment-backend/src/main/java/br/com/hackathonone/sentiment_backend/service/NotificacaoService.java:44-53 | creation adds one to its seller's pending count and leaves every other seller's count alone |
| Notificacoes.ContarPendentesPorVendedor | backend/sentiment-backend/src/main/java/br/com/hackathonone/sentiment_backend/service/NotificacaoService.java:83-85 | the pending count is at most the seller's notification count, and is zero exactly when all of them are read |
| Notificacoes.ToResponse | backend/sentiment-backend/src/main/java/br/com/hackathonone/sentiment_backend/service/NotificacaoService.java:120-133 | the response's status is "LIDA" / "PENDENTE" exactly for read / pending notifications; ids of seller, comment and product are carried over |
| Notificacoes.ListarPorVendedor | backend/sentiment-backend/src/main/java/br/com/hackathonone/sentiment_backend/service/NotificacaoService.java:63-67 | one response per notification of the seller: every one of them is included, and every response is the response of a stored notification of the seller |
| Notificacoes.ListarPendentesPorVendedor | backend/sentiment-backend/src/main/java/br/com/hackathonone/sentiment_backend/service/NotificacaoService.java:73-77 | as many responses as the pending count: every pending notification of the seller is included, and every response is the response of a stored pending notification of the seller |
| Notificacoes.MarcarComoLida | backend/sentiment-backend/src/main/java/br/com/hackathonone/sentiment_backend/service/NotificacaoService.java:91-101 | an unknown id fails with not-found and changes nothing; otherwise that one notification becomes LIDA, whatever it was, nothing else changes, and the answer is the marked notification's response |
| Notificacoes.MarcarComoLidaIdempotente | backend/sentiment-backend/src/main/java/br/com/hackathonone/sentiment_backend/service/NotificacaoService.java:97-98 | marking the same notification read twice is marking it once |
| Notificacoes.MarcarComoLidaCount | backend/sentiment-backend/src/main/java/br/com/hackathonone/sentiment_backend/service/NotificacaoService.java:97-98 | the owner's pending count drops by one when the notification was pending and is otherwise unchanged |
| Notificacoes.MarcarTodasComoLidas | backend/sentiment-backend/src/main/java/br/com/hackathonone/sentiment_backend/service/NotificacaoService.java:107-115 | afterwards the seller has no pending notification; other sellers' and already-read ones are untouched; only statuses change |
| Notificacoes.MarcarTodasOutrosVendedores | backend/sentiment-backend/src/main/java/br/com/hackathonone/sentiment_backend/service/NotificacaoService.java:110-113 | every other seller's pending count is unchanged |
| Notificacoes.MarcarTodasIdempotente | backend/sentiment-backend/src/main/java/br/com/hackathonone/sentiment_backend/service/NotificacaoService.java:110-114 | marking all read a second time changes nothing |
| Notificacoes.PassoAvanca | backend/sentiment-backend/src/main/java/br/com/hackathonone/sentiment_backend/service/NotificacaoService.java:44-113 | each operation only appends pending notifications and only moves existing ones from PENDENTE to LIDA |
| Notificacoes.StatusOnlyAdvances | backend/sentiment-backend/src/main/java/br/com/hackathonone/sentiment_backend/service/NotificacaoService.java:46-113 | no sequence of operations moves a notification from LIDA back to PENDENTE or alters anything but its status |
| Comentarios.MapearSentimento | backend/sentiment-backend/src/main/java/br/com/hackathonone/sentiment_backend/service/ComentarioService.java:143-151 | null gives NEUTRO; POSITIVO exactly for an upper-cased label in {POSITIVO, POSITIVE, POS}, NEGATIVO exactly for one in {NEGATIVO, NEGATIVE, NEG} |
| Comentarios.MapearRefinesFromLabel | backend/sentiment-backend/src/main/java/br/com/hackathonone/sentiment_backend/service/ComentarioService.java:143-151 | whenever this mapper recognises a label, `fromLabel` agrees with it |
| Comentarios.MapearDiffersOnDigits | backend/sentiment-backend/src/main/java/br/com/hackathonone/sentiment_backend/service/ComentarioService.java:146-149 | "1" and "0" fall to NEUTRO here but not in `fromLabel` |
| Comentarios.MapearDiffersOnPadding | backend/sentiment-backend/src/main/java/br/com/hackathonone/sentiment_backend/service/ComentarioService.java:146 | a padded label falls to NEUTRO here, since nothing is trimmed |
| Comentarios.AnalisarSentimento | backend/sentiment-backend/src/main/java/br/com/hackathonone/sentiment_backend/service/ComentarioService.java:95-138 | critical exactly when NEGATIVO at probability at least 0.8; a classifier failure gives NEUTRO at 0.5, not critical; otherwise the mapped label and the classifier's probability |
| Comentarios.CriticoImplicaNegativo | backend/sentiment-backend/src/main/java/br/com/hackathonone/sentiment_backend/service/ComentarioService.java:110-111 | a critical result is negative and came from a successful classification at or above the threshold |
| Comentarios.BuscarComprador | backend/sentiment-backend/src/main/java/br/com/hackathonone/sentiment_backend/service/ComentarioService.java:58-62 | no id gives no buyer; an unknown id gives no buyer rather than an error; a found buyer has the requested id |
| Comentarios.ToResponse | backend/sentiment-backend/src/main/java/br/com/hackathonone/sentiment_backend/service/ComentarioService.java:198-220 | sentiment, probability and critical flag are present exactly when a result exists; the written sentiment reads back as the stored one |
| Comentarios.ResultadoDe | backend/sentiment-backend/src/main/java/br/com/hackathonone/sentiment_backend/service/ComentarioService.java:161-162 | the stored result of a comment, absent exactly when none refers to it |
| Comentarios.Criar | backend/sentiment-backend/src/main/java/br/com/hackathonone/sentiment_backend/service/ComentarioService.java:50-90 | an unknown product fails with not-found and stores nothing; otherwise one comment (origin defaulting to "SITE", language "pt-BR", fresh id) and one result are appended, the result being the classifier's answer on the text as `analisarSentimento` maps it, and the notification table grows by exactly the seller's new critical-comment notification iff that result is negative and critical |
| Comentarios.FallbackNeverNotifies | backend/sentiment-backend/src/main/java/br/com/hackathonone/sentiment_backend/service/ComentarioService.java:124-137 | when the classifier fails, creation still stores a NEUTRO result and raises no notification |
| Comentarios.CriarPendingCount | backend/sentiment-backend/src/main/java/br/com/hackathonone/sentiment_backend/service/ComentarioService.java:82-87 | creation raises the seller's pending count by one exactly for a critical result and no other seller's |
| Comentarios.CriarNotificaSeCritico | backend/sentiment-backend/src/main/java/br/com/hackathonone/sentiment_backend/service/ComentarioService.java:79-111 | the new comment raises a notification exactly when the classifier answered a label mapped to NEGATIVO with probability at least 0.8; it is one pending notification for the product's seller about the stored result, and otherwise nothing is notified |
| Comentarios.Respostas | backend/sentiment-backend/src/main/java/br/com/hackathonone/sentiment_backend/service/ComentarioService.java:172-178 | one response per comment, in order, each with that comment's stored result |
| Comentarios.BuscarPorId | backend/sentiment-backend/src/main/java/br/com/hackathonone/sentiment_backend/service/ComentarioService.java:157-165 | an unknown comment fails with not-found; otherwise the answer is the response of the stored comment with that id together with its stored result, so analysis fields are present exactly when it has a result |
| Comentarios.ListarPorProduto | backend/sentiment-backend/src/main/java/br/com/hackathonone/sentiment_backend/service/ComentarioService.java:171-179 | one response per comment on the product; every such comment appears with its stored result, and every response is such a comment's |
| Comentarios.ListarPorVendedor | backend/sentiment-backend/src/main/java/br/com/hackathonone/sentiment_backend/service/ComentarioService.java:185-194 | one response per comment on the seller's products; every such comment appears with its stored result, and every response is such a comment's |
| SentimentApi.Analisar | backend/sentiment-backend/src/main/java/com/sentimentapi/service/SentimentService.java:53-85 | a classifier failure propagates and nothing is stored; otherwise exactly one row with the given origin, batch id, analysis time and processing time, the normalised sentiment and the classifier's probability, answered with that sentiment's display label |
| SentimentApi.AnalisarApi | backend/sentiment-backend/src/main/java/com/sentimentapi/service/SentimentService.java:40-42 | the single-text overload records origin "API" and no batch id |
| SentimentApi.AnalisarPrevisaoRoundTrip | backend/sentiment-backend/src/main/java/com/sentimentapi/service/SentimentService.java:62-84 | the answered label reads back as the recorded sentiment |
| SentimentApi.ItemBatchCorrect | backend/sentiment-backend/src/main/java/com/sentimentapi/service/SentimentService.java:101-117 | an entry is "ERRO" exactly when its text failed, then with probability 0.0; otherwise a label reading back as the classifier's, with its probability |
| SentimentApi.GetLabelNotErro | backend/sentiment-backend/src/main/java/com/sentimentapi/service/SentimentService.java:102-108 | no display label is "ERRO" |
| SentimentApi.PersistidosCount | backend/sentiment-backend/src/main/java/com/sentimentapi/service/SentimentService.java:100-118 | a batch records exactly one row per successfully classified text |
| SentimentApi.PersistidosOrigem | backend/sentiment-backend/src/main/java/com/sentimentapi/service/SentimentService.java:96-102 | every row a batch records has origin "BATCH" and the batch's one id |
| SentimentApi.BatchStep | backend/sentiment-backend/src/main/java/com/sentimentapi/service/SentimentService.java:100-118 | each loop iteration extends the entries by the current text's entry and the rows by its row, if any |
| SentimentApi.PassoBatch | backend/sentiment-backend/src/main/java/com/sentimentapi/service/SentimentService.java:101-117 | one loop step stores the item's row if it was classified and yields the item's entry |
| SentimentApi.AnalisarBatch | backend/sentiment-backend/src/main/java/com/sentimentapi/service/SentimentService.java:94-130 | one entry per text in input order, `total` equal to their number, failures turned into entries without stopping the loop, all rows under the one batch id |
| Stats.Round | backend/sentiment-backend/src/main/java/com/sentimentapi/service/StatsService.java:67 | `Math.round` gives the integer within half of its argument, halves up |
| Stats.CalcularPercentual | backend/sentiment-backend/src/main/java/com/sentimentapi/service/StatsService.java:65-68 | 0 for a zero total; otherwise a whole number of hundredths within half a hundredth of the exact percentage |
| Stats.CalcularPercentualUnique | backend/sentiment-backend/src/main/java/com/sentimentapi/service/StatsService.java:67 | that value is the only whole number of hundredths in that window |
| Stats.CalcularPercentualBounds | backend/sentiment-backend/src/main/java/com/sentimentapi/service/StatsService.java:67 | a share of a positive total lies in [0, 100] |
| Stats.CalcularPercentualExample | backend/sentiment-backend/src/main/java/com/sentimentapi/service/StatsService.java:67 | 3 of 4 is 75.00 and 1 of 4 is 25.00 |
| Stats.Media | backend/sentiment-backend/src/main/java/com/sentimentapi/service/StatsService.java:47-49 | an average is null exactly when there is nothing to average |
| Stats.CountsAddUp | backend/sentiment-backend/src/main/java/com/sentimentapi/service/StatsService.java:43-45 | the three sentiment counts add up to the number of analyses |
| Stats.GetStats | backend/sentiment-backend/src/main/java/com/sentimentapi/service/StatsService.java:25-63 | all zeros with nothing stored; counts per sentiment summing to the total; their percentages, each in [0, 100]; averages reported as 0.0 when null |
| Stats.GetStatsExample | backend/sentiment-backend/src/main/java/com/sentimentapi/service/StatsService.java:43-58 | three positive analyses and one negative give 75.00, 25.00 and 0.00 |
| Dashboard.Percentual | backend/sentiment-backend/src/main/java/br/com/hackathonone/sentiment_backend/service/DashboardService.java:49-51 | a zero total gives 0 |
| Dashboard.PercentualAgreesWithStats | backend/sentiment-backend/src/main/java/br/com/hackathonone/sentiment_backend/service/DashboardService.java:49-62 | the dashboard's percentage equals the statistics service's: two decimals, half up |
| Dashboard.SellerCountsAddUp | backend/sentiment-backend/src/main/java/br/com/hackathonone/sentiment_backend/service/DashboardService.java:41-44 | the seller's three sentiment counts add up to the seller's total |
| Dashboard.GetStats | backend/sentiment-backend/src/main/java/br/com/hackathonone/sentiment_backend/service/DashboardService.java:38-66 | echoes the seller and raw counts, which sum to the total; products and pending notifications of that seller; percentages 0 for no comments, else rounded to two decimals and within [0, 100] |
| Dashboard.Exportar | backend/sentiment-backend/src/main/java/br/com/hackathonone/sentiment_backend/service/DashboardService.java:72-84 | echoes the seller, with that seller's statistics and comment listing |
| DsService.AnyMarker | ds-service/app/main.py:21 | `any(...)` holds exactly when some marker occurs |
| DsService.Heuristic | ds-service/app/model.py:32-37 | Negativo 0.85 exactly when a marker occurs in the lower-cased text, Positivo 0.75 otherwise |
| DsService.HeuristicRange | ds-service/app/main.py:21-24 | the label is Negativo or Positivo, never Neutro, and the probability lies in [0, 1] |
| DsService.ModelPredict | ds-service/app/model.py:31-42 | with no pipeline loaded the heuristic answers, total on every string |
| DsService.PredictApi | ds-service/app/main.py:13-24 | rejected with 400 exactly when the stripped text (a missing one counting as empty) is shorter than 3; otherwise the heuristic on the stripped text |
| DsService.MarkersUnpadded | ds-service/app/main.py:19 | every marker is non-empty and neither starts nor ends with whitespace |
| DsService.PredictAgreesWithFallback | ds-service/app/main.py:14-24 | on every accepted text the endpoint agrees with the model's fallback |
| DsService.HeuristicCaseInsensitive | ds-service/app/main.py:18 | upper-casing the text does not change the answer |
| DsService.PredictRejectsEmpty | ds-service/app/main.py:14-16 | a missing or all-whitespace text is rejected with 400 |
| Pipeline.ServicoHeuristico | backend/sentiment-backend/src/main/java/com/sentimentapi/service/DsServiceClient.java:38-68 | the backends' classifier fails exactly when the service rejects the text (400, or 422 for a raw text under 3 characters), and otherwise passes on its label and probability |
| Pipeline.ServicoAnswers | ds-service/app/main.py:14-24 | an accepted text is answered Negativo 0.85 exactly when it contains a marker, else Positivo 0.75 |
| Pipeline.MapearHeuristicLabels | backend/sentiment-backend/src/main/java/br/com/hackathonone/sentiment_backend/service/ComentarioService.java:146-148 | the service's two labels map to NEGATIVO and POSITIVO |
| Pipeline.CriticoSeMarcador | backend/sentiment-backend/src/main/java/br/com/hackathonone/sentiment_backend/service/ComentarioService.java:98-137 | against the heuristic service a comment is critical exactly when its text is accepted and contains a marker; a rejected text is stored as NEUTRO |
| Pipeline.ApiSeMarcador | backend/sentiment-backend/src/main/java/com/sentimentapi/service/SentimentService.java:53-84 | against the heuristic service the API fails exactly on rejected texts, and records NEGATIVO exactly when a marker occurs |
| Pipeline.BatchRejeitaCurtos | backend/sentiment-backend/src/main/java/com/sentimentapi/service/SentimentService.java:110-116 | in a batch, a rejected text becomes an "ERRO" entry with probability 0.0 |

## Left out

- HTTP plumbing: controllers, exception handlers, CORS, health checks and the application bootstraps only route requests and map status codes.
- The classifier's transport: `DsServiceClient`, the Feign `SentimentDsClient` and its properties are network calls. The classifier is a deterministic function parameter that answers or fails; `Pipeline` instantiates it with the Python heuristic.
- The JPA layer: repositories are sequences. `ORDER BY dataCriacao DESC` is not modelled, so listings come in table order. Ids come from `max + 1`, not from a database sequence.
- Transactions: `@Transactional` rollback is not modelled. A failing operation returns its error and leaves the state unchanged.
- Time and randomness: `LocalDateTime.now()`, `System.currentTimeMillis()` and `UUID.randomUUID()` are parameters.
- Floating point: probabilities, averages and percentages are exact `real`s. Java `double` rounding artefacts are not modelled, nor `BigDecimal` scale.
- Dashboard.PercentualAgreesWithStats: holds over exact reals. In `double` arithmetic the dashboard's `p / t * 100 * 100` and the statistics service's `p / t * 10000` can round differently.
- Notificacoes.MensagemCritica: keeps the message's parts (product name, sentiment name, percentage) rather than the `String.format` text. The `%.0f` formatting is not modelled.
- Stats.GetStats: SQL `AVG` is modelled as the exact mean of the relevant rows. The repository queries are not part of this model.
- Casing: upper- and lower-casing are ASCII-only, and Java `trim` removes code points up to U+0020. Python `strip` is modelled as ASCII whitespace only; Unicode whitespace and non-ASCII case mappings (such as "PÉSSIMO" lower-casing to "péssimo") are not modelled.
- Validation annotations: request constraints enforced by the framework before a service runs are not modelled. These are the text length at least 3, the rating between 1 and 5, and at most 100 batch items. The services are modelled on every input.
- DsService.PredictApi: models the body of `predict` on any text, including a missing one. The request schema's own check (a required text of at least 3 characters, answered with 422 before `predict` runs) is not modelled.
- The trained pipeline: `model.py` with a `joblib` pipeline loaded answers with that pipeline's best class. It is a parameter, not modelled further. `SentimentModel.load` (a file check) and `datascience/` are out.
- `ClienteService`, `ProdutoService`, and the pass-through `SentimentService.analyzeSentiment` of the marketplace backend are not part of this model.
- `NotificacaoService` builds and reads the notification's analysis result as `resultado`, while the entity's field is `resultadoAnalise` (`Notificacao.java` line 46). The model follows the evident intent: the notification holds its result.
- The marketplace backend's own `Sentimento` enum (imported by `ComentarioService`, `DashboardService` and `ResultadoAnalise`) is not part of this model. It is assumed to have the same three constants as the public API's `Sentimento`, so both share one datatype, and its `name()` is `Sentimentos.Name`.
- `ComentarioService` passes a `double` probability to a `BigDecimal` column. It is modelled as the same `real`.
- `marcarTodasComoLidas` loads the seller's pending notifications ordered by date, then saves them. Order does not matter for the result, so it is modelled as one pointwise update.

=== FILE: classificacao.dfy ===
/** The remote classification service, as its callers see it.

    The service is reached over HTTP; the model replaces that call by a
    deterministic function of the text that either answers or fails. */
module Classificacao {
  import opened Common

  /** A classifier reply: the raw `label` (possibly null) and its `probability`. */
  datatype DsPrediction = DsPrediction(rotulo: Option<string>, probability: real)

  /** The call threw: connection failure, non-2xx status or an empty body. */
  datatype ClassifierError = ClassifierError(reason: string)

  type Classifier = string -> Result<DsPrediction, ClassifierError>
}

=== FILE: comentarios.dfy ===
/** The comment workflow of `ComentarioService`: a buyer's comment on a
    product is stored, classified, and a critical negative result raises one
    notification for the product's seller. */
module Comentarios {
  import opened Common
  import opened Text
  import opened Sentimentos
  import opened Domain
  import opened Classificacao
  import Notificacoes

  /** `ComentarioRequest`. */
  datatype ComentarioRequest = ComentarioRequest(
    texto: string,
    nota: Option<int>,
    origem: Option<string>,
    produtoId: nat,
    compradorId: Option<nat>)

  /** `ComentarioResponse`: the analysis fields are absent when the comment has
      no stored result, the buyer fields when it has no buyer. */
  datatype ComentarioResponse = ComentarioResponse(
    id: nat,
    texto: string,
    nota: Option<int>,
    origem: string,
    dataCriacao: Instante,
    produtoId: nat,
    produtoNome: string,
    compradorId: Option<nat>,
    compradorNome: Option<string>,
    sentimento: Option<string>,
    probabilidade: Option<real>,
    ehCritico: Option<bool>)

  const OrigemPadrao: string := "SITE"
  const Idioma: string := "pt-BR"

  /** A result at or above this probability is critical when negative. */
  const ThresholdCritico: real := 0.8

  const MapearPositivos: set<string> := {"POSITIVO", "POSITIVE", "POS"}
  const MapearNegativos: set<string> := {"NEGATIVO", "NEGATIVE", "NEG"}

  /** `mapearSentimento`, this service's own label mapper: null is `Neutro`, a
      label is upper-cased but not trimmed, and the digit synonyms are not
      recognised. */
  function MapearSentimento(raw: Option<string>): (r: Sentimento)
    ensures raw.None? ==> r == Neutro
    ensures r == Positivo <==> raw.Some? && Upper(raw.value) in MapearPositivos
    ensures r == Negativo <==> raw.Some? && Upper(raw.value) in MapearNegativos
  {
    match raw
    case None => Neutro
    case Some(l) =>
      var key := Upper(l);
      if key in MapearPositivos then Positivo
      else if key in MapearNegativos then Negativo
      else Neutro
  }

  /** Every key `mapearSentimento` recognises starts and ends with a letter. */
  lemma MapearKeyUnpadded(key: string)
    requires key in MapearPositivos + MapearNegativos
    ensures key != [] && !IsJavaTrimmable(key[0]) && !IsJavaTrimmable(key[|key| - 1])
    ensures key in PositiveSynonyms + NegativeSynonyms
    ensures (key in MapearPositivos) == (key in PositiveSynonyms)
  {
  }

  /** Whenever `mapearSentimento` recognises a label, `fromLabel` gives the same
      sentiment: the service's mapper is a weaker version of the enum's. */
  lemma MapearRefinesFromLabel(raw: Option<string>)
    ensures MapearSentimento(raw) != Neutro ==> MapearSentimento(raw) == FromLabel(raw)
  {
    if raw.Some? && MapearSentimento(raw) != Neutro {
      var l := raw.value;
      var key := Upper(l);
      MapearKeyUnpadded(key);
      UpperKeepsTrimmable(l);
      FromLabelOfKey(l, key);
    }
  }

  /** The digit synonyms are only understood by `fromLabel`. */
  lemma MapearDiffersOnDigits()
    ensures MapearSentimento(Some("1")) == Neutro && FromLabel(Some("1")) == Positivo
    ensures MapearSentimento(Some("0")) == Neutro && FromLabel(Some("0")) == Negativo
  {
    FromLabelDigitExamples();
    assert MapearSentimento(Some("1")) == Neutro by {
      assert Upper("1") == "1" by {}
    }
    assert MapearSentimento(Some("0")) == Neutro by {
      assert Upper("0") == "0" by {}
    }
  }

  /** A padded label is only understood by `fromLabel`, which trims it. */
  lemma MapearDiffersOnPadding()
    ensures MapearSentimento(Some(" positivo ")) == Neutro && FromLabel(Some(" positivo ")) == Positivo
  {
    FromLabelPaddedExample();
    var key := Upper(" positivo ");
    assert key[0] == ' ' by {}
    assert key !in MapearPositivos && key !in MapearNegativos;
  }

  /** The critical rule: negative with probability at least the threshold. */
  predicate EhCritico(s: Sentimento, p: real) {
    s == Negativo && p >= ThresholdCritico
  }

  /** The private `analisarSentimento`: the classifier's label is mapped and the
      result is critical exactly when it is negative at or above the threshold;
      when the classifier throws, the result is `Neutro` at 0.5 and not critical.
      Either way a result is produced: the comment never fails here. */
  function AnalisarSentimento(classify: Classifier, comentario: Comentario, id: nat, agora: Instante): (r: ResultadoAnalise)
    ensures r.id == id && r.comentario == comentario && r.dataAnalise == agora
    ensures r.ehCritico <==> EhCritico(r.sentimento, r.probabilidade)
    ensures classify(comentario.textoOriginal).Failure? ==>
      r.sentimento == Neutro && r.probabilidade == 0.5 && !r.ehCritico
    ensures classify(comentario.textoOriginal).Success? ==>
      r.sentimento == MapearSentimento(classify(comentario.textoOriginal).value.rotulo) &&
      r.probabilidade == classify(comentario.textoOriginal).value.probability
  {
    match classify(comentario.textoOriginal)
    case Success(p) =>
      var sentimento := MapearSentimento(p.rotulo);
      var ehCritico := sentimento == Negativo && p.probability >= ThresholdCritico;
      ResultadoAnalise(id, sentimento, p.probability, ehCritico, agora, comentario)
    case Failure(_) =>
      ResultadoAnalise(id, Neutro, 0.5, false, agora, comentario)
  }

  /** A critical result is negative, came from a successful classification, and
      the classifier gave it at least the threshold probability. */
  lemma CriticoImplicaNegativo(classify: Classifier, comentario: Comentario, id: nat, agora: Instante)
    ensures var r := AnalisarSentimento(classify, comentario, id, agora);
      r.ehCritico ==>
        r.sentimento == Negativo &&
        classify(comentario.textoOriginal).Success? &&
        classify(comentario.textoOriginal).value.probability >= ThresholdCritico
  {
  }

  /** The optional buyer: looked up only when an identifier is given, and an
      unknown identifier gives no buyer rather than an error. */
  function BuscarComprador(clientes: seq<Cliente>, compradorId: Option<nat>): (c: Option<Cliente>)
    ensures compradorId.None? ==> c.None?
    ensures c.Some? ==> compradorId == Some(c.value.id) && c.value in clientes
    ensures compradorId.Some? ==>
      (c.Some? <==> exists i :: 0 <= i < |clientes| && clientes[i].id == compradorId.value)
  {
    match compradorId
    case None => None
    case Some(cid) =>
      match FindById(clientes, ClienteId, cid)
      case None => None
      case Some(k) => Some(clientes[k])
  }

  /** The private `toResponse`: the analysis fields are present exactly when a
      result is given, and the sentiment is written as its constant name, which
      reads back as the same sentiment. */
  function ToResponse(c: Comentario, resultado: Option<ResultadoAnalise>): (r: ComentarioResponse)
    ensures r.id == c.id && r.texto == c.textoOriginal && r.origem == c.origem
    ensures r.produtoId == c.produto.id && r.produtoNome == c.produto.nome
    ensures r.compradorId.Some? <==> c.comprador.Some?
    ensures c.comprador.Some? ==> r.compradorId == Some(c.comprador.value.id)
    ensures r.sentimento.Some? <==> resultado.Some?
    ensures r.probabilidade.Some? <==> resultado.Some?
    ensures r.ehCritico.Some? <==> resultado.Some?
    ensures resultado.Some? ==> FromLabel(r.sentimento) == resultado.value.sentimento
    ensures resultado.Some? ==>
      r.probabilidade == Some(resultado.value.probabilidade) && r.ehCritico == Some(resultado.value.ehCritico)
  {
    var compradorId := if c.comprador.Some? then Some(c.comprador.value.id) else None;
    var compradorNome := if c.comprador.Some? then Some(c.comprador.value.nome) else None;
    match resultado
    case None =>
      ComentarioResponse(c.id, c.textoOriginal, c.nota, c.origem, c.dataCriacao, c.produto.id,
        c.produto.nome, compradorId, compradorNome, None, None, None)
    case Some(res) =>
      FromLabelName(res.sentimento);
      ComentarioResponse(c.id, c.textoOriginal, c.nota, c.origem, c.dataCriacao, c.produto.id,
        c.produto.nome, compradorId, compradorNome,
        Some(Name(res.sentimento)), Some(res.probabilidade), Some(res.ehCritico))
  }

  function ResultadoComentarioId(r: ResultadoAnalise): nat {
    r.comentario.id
  }

  /** `findByComentarioId`: the stored result of a comment, if any. */
  function ResultadoDe(resultados: seq<ResultadoAnalise>, comentarioId: nat): (r: Option<ResultadoAnalise>)
    ensures r.Some? ==> r.value in resultados && r.value.comentario.id == comentarioId
    ensures r.None? <==> forall i :: 0 <= i < |resultados| ==> resultados[i].comentario.id != comentarioId
  {
    match FindById(resultados, ResultadoComentarioId, comentarioId)
    case None => None
    case Some(k) => Some(resultados[k])
  }

  /** The state `criar` leaves behind, with the stored comment and result. */
  datatype Criacao = Criacao(loja: Loja, comentario: Comentario, resultado: ResultadoAnalise, resposta: ComentarioResponse)

  /** `criar`: an unknown product fails with not-found before anything is
      stored. Otherwise one comment (origin defaulting to `"SITE"`, language
      `"pt-BR"`) and one analysis result are appended, and exactly one pending
      notification for the product's seller is appended when the result is
      negative and critical, none otherwise. */
  function Criar(loja: Loja, req: ComentarioRequest, classify: Classifier, agora: Instante): (r: Result<Criacao, Erro>)
    ensures r.Failure? <==> forall i :: 0 <= i < |loja.produtos| ==> loja.produtos[i].id != req.produtoId
    ensures r.Failure? ==> r.error == ProdutoNaoEncontrado(req.produtoId)
    ensures r.Success? ==> CriacaoValida(loja, req, classify, agora, r.value)
  {
    match FindById(loja.produtos, ProdutoId, req.produtoId)
    case None => Failure(ProdutoNaoEncontrado(req.produtoId))
    case Some(k) =>
      var produto := loja.produtos[k];
      var comentario := Comentario(
        NextId(loja.comentarios, ComentarioId), req.texto, req.nota, req.origem.GetOr(OrigemPadrao),
        Idioma, agora, BuscarComprador(loja.clientes, req.compradorId), produto);
      var resultado := AnalisarSentimento(classify, comentario, NextId(loja.resultados, ResultadoId), agora);
      var notificacoes :=
        if resultado.sentimento == Negativo && resultado.ehCritico then
          Notificacoes.CriarNotificacaoComentarioCritico(loja.notificacoes, produto.vendedor, resultado, agora).0
        else loja.notificacoes;
      var nova := loja.(
        comentarios := loja.comentarios + [comentario],
        resultados := loja.resultados + [resultado],
        notificacoes := notificacoes);
      Success(Criacao(nova, comentario, resultado, ToResponse(comentario, Some(resultado))))
  }

  /** What a successful `criar` guarantees about the state it leaves. */
  predicate CriacaoValida(loja: Loja, req: ComentarioRequest, classify: Classifier, agora: Instante, c: Criacao) {
    var l := c.loja;
    var com := c.comentario;
    var res := c.resultado;
    // clients and products are untouched
    l.clientes == loja.clientes && l.produtos == loja.produtos &&
    // one comment, built from the request under a fresh identifier
    l.comentarios == loja.comentarios + [com] &&
    com.textoOriginal == req.texto && com.nota == req.nota &&
    com.origem == req.origem.GetOr(OrigemPadrao) && com.idioma == Idioma && com.dataCriacao == agora &&
    com.produto in loja.produtos && com.produto.id == req.produtoId &&
    (forall i :: 0 <= i < |loja.comentarios| ==> loja.comentarios[i].id != com.id) &&
    com.comprador == BuscarComprador(loja.clientes, req.compradorId) &&
    // one analysis result under a fresh identifier: the classifier's answer on the text
    l.resultados == loja.resultados + [res] &&
    (forall i :: 0 <= i < |loja.resultados| ==> loja.resultados[i].id != res.id) &&
    res == AnalisarSentimento(classify, com, res.id, agora) &&
    // a notification for the seller exactly when the result is negative and critical
    (if res.sentimento == Negativo && res.ehCritico then
       l.notificacoes == Notificacoes.CriarNotificacaoComentarioCritico(loja.notificacoes, com.produto.vendedor, res, agora).0
     else l.notificacoes == loja.notificacoes) &&
    // the response describes the stored comment and its result
    c.resposta == ToResponse(com, Some(res))
  }

  /** On a successful `criar`, the stored result is critical exactly when the
      classifier answered with a label mapped to `Negativo` at or above the
      threshold, and then exactly one pending notification about it, for the
      product's seller, is appended; otherwise the notifications are unchanged. */
  lemma CriarNotificaSeCritico(loja: Loja, req: ComentarioRequest, classify: Classifier, agora: Instante)
    requires Criar(loja, req, classify, agora).Success?
    ensures var c := Criar(loja, req, classify, agora).value;
      var p := classify(req.texto);
      (c.resultado.ehCritico <==>
         p.Success? && MapearSentimento(p.value.rotulo) == Negativo && p.value.probability >= ThresholdCritico) &&
      (c.resultado.ehCritico ==>
         |c.loja.notificacoes| == |loja.notificacoes| + 1 &&
         c.loja.notificacoes[..|loja.notificacoes|] == loja.notificacoes &&
         c.loja.notificacoes[|loja.notificacoes|].status == Pendente &&
         c.loja.notificacoes[|loja.notificacoes|].vendedor == c.comentario.produto.vendedor &&
         c.loja.notificacoes[|loja.notificacoes|].resultado == c.resultado) &&
      (!c.resultado.ehCritico ==> c.loja.notificacoes == loja.notificacoes)
  {
    var c := Criar(loja, req, classify, agora).value;
    assert CriacaoValida(loja, req, classify, agora, c);
    if c.resultado.ehCritico {
      var n := Notificacoes.CriarNotificacaoComentarioCritico(
        loja.notificacoes, c.comentario.produto.vendedor, c.resultado, agora);
      assert c.loja.notificacoes == n.0 == loja.notificacoes + [n.1];
      assert c.loja.notificacoes[..|loja.notificacoes|] == loja.notificacoes;
    }
  }

  /** When the classifier fails, `criar` still succeeds for a known product,
      stores a `Neutro` result and raises no notification. */
  lemma FallbackNeverNotifies(loja: Loja, req: ComentarioRequest, classify: Classifier, agora: Instante)
    requires classify(req.texto).Failure?
    requires Criar(loja, req, classify, agora).Success?
    ensures Criar(loja, req, classify, agora).value.loja.notificacoes == loja.notificacoes
    ensures Criar(loja, req, classify, agora).value.resultado.sentimento == Neutro
  {
  }

  /** `criar` raises the seller's pending count by one exactly for a critical
      result, and changes no other seller's count. */
  lemma CriarPendingCount(loja: Loja, req: ComentarioRequest, classify: Classifier, agora: Instante, v: nat)
    requires Criar(loja, req, classify, agora).Success?
    ensures var c := Criar(loja, req, classify, agora).value;
      Notificacoes.ContarPendentesPorVendedor(c.loja.notificacoes, v)
        == Notificacoes.ContarPendentesPorVendedor(loja.notificacoes, v)
           + (if c.resultado.ehCritico && v == c.comentario.produto.vendedor.id then 1 else 0)
  {
    var c := Criar(loja, req, classify, agora).value;
    if c.resultado.ehCritico {
      Notificacoes.CriarCount(loja.notificacoes, c.comentario.produto.vendedor, c.resultado, agora, v);
    }
  }

  /** Responses for `cs`, each with the comment's stored result if it has one. */
  function Respostas(resultados: seq<ResultadoAnalise>, cs: seq<Comentario>): (r: seq<ComentarioResponse>)
    ensures |r| == |cs|
    ensures forall i :: 0 <= i < |cs| ==> r[i] == ToResponse(cs[i], ResultadoDe(resultados, cs[i].id))
  {
    seq(|cs|, i requires 0 <= i < |cs| => ToResponse(cs[i], ResultadoDe(resultados, cs[i].id)))
  }

  /** `buscarPorId`: an unknown comment fails with not-found; a known one is
      answered with its result's fields when it has a result. */
  function BuscarPorId(loja: Loja, id: nat): (r: Result<ComentarioResponse, Erro>)
    ensures r.Failure? <==> forall i :: 0 <= i < |loja.comentarios| ==> loja.comentarios[i].id != id
    ensures r.Failure? ==> r.error == ComentarioNaoEncontrado(id)
    ensures r.Success? ==> r.value.id == id
    ensures r.Success? ==>
      (r.value.sentimento.Some? <==> exists i :: 0 <= i < |loja.resultados| && loja.resultados[i].comentario.id == id)
    ensures r.Success? ==>
      exists c <- loja.comentarios :: c.id == id && r.value == ToResponse(c, ResultadoDe(loja.resultados, id))
  {
    match FindById(loja.comentarios, ComentarioId, id)
    case None => Failure(ComentarioNaoEncontrado(id))
    case Some(k) => Success(ToResponse(loja.comentarios[k], ResultadoDe(loja.resultados, id)))
  }

  function DoProduto(produtoId: nat): Comentario -> bool {
    (c: Comentario) => c.produto.id == produtoId
  }

  function DoVendedor(vendedorId: nat): Comentario -> bool {
    (c: Comentario) => c.produto.vendedor.id == vendedorId
  }

  /** `listarPorProduto`: one response per comment on the product, each with
      the comment's stored result; every comment on the product is answered,
      and nothing else is. */
  function ListarPorProduto(loja: Loja, produtoId: nat): (r: seq<ComentarioResponse>)
    ensures |r| == Count(loja.comentarios, DoProduto(produtoId))
    ensures forall i :: 0 <= i < |r| ==> r[i].produtoId == produtoId
    ensures forall c <- loja.comentarios | c.produto.id == produtoId ::
      ToResponse(c, ResultadoDe(loja.resultados, c.id)) in r
    ensures forall x <- r :: exists c <- loja.comentarios ::
      c.produto.id == produtoId && x == ToResponse(c, ResultadoDe(loja.resultados, c.id))
  {
    var f := Filter(loja.comentarios, DoProduto(produtoId));
    var r := Respostas(loja.resultados, f);
    RespostasIn(loja.resultados, f);
    r
  }

  /** `listarPorVendedor`: one response per comment on any of the seller's
      products, each with the comment's stored result; every such comment is
      answered, and nothing else is. */
  function ListarPorVendedor(loja: Loja, vendedorId: nat): (r: seq<ComentarioResponse>)
    ensures |r| == Count(loja.comentarios, DoVendedor(vendedorId))
    ensures forall c <- loja.comentarios | c.produto.vendedor.id == vendedorId ::
      ToResponse(c, ResultadoDe(loja.resultados, c.id)) in r
    ensures forall x <- r :: exists c <- loja.comentarios ::
      c.produto.vendedor.id == vendedorId && x == ToResponse(c, ResultadoDe(loja.resultados, c.id))
  {
    var f := Filter(loja.comentarios, DoVendedor(vendedorId));
    var r := Respostas(loja.resultados, f);
    RespostasIn(loja.resultados, f);
    r
  }

  /** A comment's response is among the responses exactly when the comment is
      among the comments answered. */
  lemma RespostasIn(resultados: seq<ResultadoAnalise>, cs: seq<Comentario>)
    ensures forall c <- cs :: ToResponse(c, ResultadoDe(resultados, c.id)) in Respostas(resultados, cs)
    ensures forall x <- Respostas(resultados, cs) :: exists c <- cs :: x == ToResponse(c, ResultadoDe(resultados, c.id))
  {
    var r := Respostas(resultados, cs);
    forall c <- cs
      ensures ToResponse(c, ResultadoDe(resultados, c.id)) in r
    {
      var i :| 0 <= i < |cs| && cs[i] == c;
      assert r[i] == ToResponse(c, ResultadoDe(resultados, c.id));
    }
    forall x <- r
      ensures exists c <- cs :: x == ToResponse(c, ResultadoDe(resultados, c.id))
    {
      var i :| 0 <= i < |r| && r[i] == x;
      assert cs[i] in cs;
    }
  }
}

=== FILE: common.dfy ===
/** Wrappers and sequence helpers shared by every service of the model.

    The source's repositories are modelled as in-memory sequences; the helpers
    here are the handful of queries they answer: counting and filtering by a
    predicate, lookup by identifier, and the next identity value. */
module Common {

  /** A nullable Java reference or an absent Python value. */
  datatype Option<+T> = None | Some(value: T) {

    /** The value, or `default` when absent (Java's `x != null ? x : default`). */
    function GetOr(default: T): T {
      if Some? then value else default
    }
  }

  /** The outcome of a call that either returns or throws. */
  datatype Result<+R, +E> = Success(value: R) | Failure(error: E)

  /** Number of elements of `xs` that satisfy `p` (a repository `countBy...`). */
  function Count<T>(xs: seq<T>, p: T -> bool): (n: nat)
    ensures n <= |xs|
    ensures n == 0 <==> forall i :: 0 <= i < |xs| ==> !p(xs[i])
  {
    if xs == [] then 0
    else (if p(xs[0]) then 1 else 0) + Count(xs[1..], p)
  }

  /** The elements of `xs` that satisfy `p`, in their original order (a repository `findBy...`). */
  function Filter<T>(xs: seq<T>, p: T -> bool): (r: seq<T>)
    ensures |r| == Count(xs, p)
    ensures forall i :: 0 <= i < |r| ==> r[i] in xs && p(r[i])
    ensures forall i :: 0 <= i < |xs| && p(xs[i]) ==> xs[i] in r
  {
    if xs == [] then []
    else (if p(xs[0]) then [xs[0]] else []) + Filter(xs[1..], p)
  }

  lemma {:induction false} CountAppend<T>(xs: seq<T>, ys: seq<T>, p: T -> bool)
    ensures Count(xs + ys, p) == Count(xs, p) + Count(ys, p)
  {
    if xs != [] {
      assert (xs + ys)[0] == xs[0];
      assert (xs + ys)[1..] == xs[1..] + ys;
      CountAppend(xs[1..], ys, p);
    } else {
      assert xs + ys == ys;
    }
  }

  /** Counting a weaker predicate never gives less. */
  lemma {:induction false} CountMonotonic<T>(xs: seq<T>, p: T -> bool, q: T -> bool)
    requires forall x :: p(x) ==> q(x)
    ensures Count(xs, p) <= Count(xs, q)
  {
    if xs != [] {
      CountMonotonic(xs[1..], p, q);
    }
  }

  /** Replacing one element changes a count by at most the two elements' contributions. */
  lemma {:induction false} CountUpdate<T>(xs: seq<T>, i: nat, y: T, p: T -> bool)
    requires i < |xs|
    ensures Count(xs[i := y], p) + (if p(xs[i]) then 1 else 0)
         == Count(xs, p) + (if p(y) then 1 else 0)
  {
    if i == 0 {
      assert xs[i := y][1..] == xs[1..];
    } else {
      assert xs[i := y][1..] == xs[1..][i - 1 := y];
      CountUpdate(xs[1..], i - 1, y, p);
    }
  }

  /** Two sequences that agree position by position on the predicates counted
      have the same count. */
  lemma {:induction false} CountPointwise<T>(xs: seq<T>, p: T -> bool, ys: seq<T>, q: T -> bool)
    requires |xs| == |ys|
    requires forall i :: 0 <= i < |xs| ==> (p(xs[i]) <==> q(ys[i]))
    ensures Count(xs, p) == Count(ys, q)
  {
    if xs != [] {
      assert p(xs[0]) <==> q(ys[0]);
      CountPointwise(xs[1..], p, ys[1..], q);
    }
  }

  /** Position of the first element of `xs` whose identifier is `id` (a repository `findById`). */
  function FindById<T>(xs: seq<T>, idOf: T -> nat, id: nat): (r: Option<nat>)
    ensures r.Some? ==> r.value < |xs| && idOf(xs[r.value]) == id
    ensures r.Some? ==> forall j :: 0 <= j < r.value ==> idOf(xs[j]) != id
    ensures r.None? <==> forall j :: 0 <= j < |xs| ==> idOf(xs[j]) != id
  {
    FindFrom(xs, idOf, id, 0)
  }

  function FindFrom<T>(xs: seq<T>, idOf: T -> nat, id: nat, k: nat): (r: Option<nat>)
    requires k <= |xs|
    requires forall j :: 0 <= j < k ==> idOf(xs[j]) != id
    ensures r.Some? ==> k <= r.value < |xs| && idOf(xs[r.value]) == id
    ensures r.Some? ==> forall j :: 0 <= j < r.value ==> idOf(xs[j]) != id
    ensures r.None? <==> forall j :: 0 <= j < |xs| ==> idOf(xs[j]) != id
    decreases |xs| - k
  {
    if k == |xs| then None
    else if idOf(xs[k]) == id then Some(k)
    else FindFrom(xs, idOf, id, k + 1)
  }

  /** The largest identifier in `xs`, 0 when empty. */
  function MaxId<T>(xs: seq<T>, idOf: T -> nat): (m: nat)
    ensures forall i :: 0 <= i < |xs| ==> idOf(xs[i]) <= m
    ensures xs == [] ==> m == 0
    ensures xs != [] ==> exists i :: 0 <= i < |xs| && idOf(xs[i]) == m
  {
    if xs == [] then 0
    else
      var rest := MaxId(xs[1..], idOf);
      assert forall i :: 1 <= i < |xs| ==> idOf(xs[i]) == idOf(xs[1..][i - 1]);
      if idOf(xs[0]) >= rest then idOf(xs[0]) else rest
  }

  /** The value an IDENTITY column hands out next: positive and unused so far. */
  function NextId<T>(xs: seq<T>, idOf: T -> nat): (r: nat)
    ensures r > 0
    ensures forall i :: 0 <= i < |xs| ==> idOf(xs[i]) < r
  {
    MaxId(xs, idOf) + 1
  }
}

=== FILE: dashboard.dfy ===
/** The seller dashboard of `DashboardService`: per-seller counts of analysed
    comments by sentiment, their percentages, the seller's products and
    pending notifications, and the export that bundles them with the
    seller's comments. */
module Dashboard {
  import opened Common
  import opened Sentimentos
  import opened Domain
  import Notificacoes
  import Comentarios
  import Stats

  datatype DashboardStatsResponse = DashboardStatsResponse(
    vendedorId: nat,
    totalComentarios: nat,
    totalProdutos: nat,
    comentariosPositivos: nat,
    comentariosNegativos: nat,
    comentariosNeutros: nat,
    percentualPositivo: real,
    percentualNegativo: real,
    percentualNeutro: real,
    notificacoesPendentes: nat,
    dataConsulta: Instante)

  datatype ExportResponse = ExportResponse(
    vendedorId: nat,
    dataExportacao: Instante,
    estatisticas: DashboardStatsResponse,
    comentarios: seq<Comentarios.ComentarioResponse>)

  /** Analysis results of comments on seller `v`'s products. */
  function DoVendedor(v: nat): ResultadoAnalise -> bool {
    (r: ResultadoAnalise) => r.comentario.produto.vendedor.id == v
  }

  /** Analysis results of seller `v` with sentiment `s`. */
  function DoVendedorCom(v: nat, s: Sentimento): ResultadoAnalise -> bool {
    (r: ResultadoAnalise) => r.comentario.produto.vendedor.id == v && r.sentimento == s
  }

  function ProdutoDoVendedor(v: nat): Produto -> bool {
    (p: Produto) => p.vendedor.id == v
  }

  /** The dashboard's percentage: `count / total * 100` when the total is
      positive, 0 otherwise, then `Math.round(p * 100.0) / 100.0`. */
  function Percentual(count: nat, total: nat): (r: real)
    ensures total == 0 ==> r == 0.0
  {
    var p := if total > 0 then count as real / total as real * 100.0 else 0.0;
    Stats.Round(p * 100.0) as real / 100.0
  }

  /** The dashboard rounds exactly as the statistics service does: two
      decimals, half up, and 0 for a zero total. */
  lemma PercentualAgreesWithStats(count: nat, total: nat)
    ensures Percentual(count, total) == Stats.CalcularPercentual(count, total)
  {
    if total > 0 {
      var q := count as real / total as real;
      assert q * 100.0 * 100.0 == q * 10000.0;
    } else {
      assert Stats.Round(0.0) == 0;
    }
  }

  /** Each sentiment's count is part of the seller's total, and the three add up to it. */
  lemma {:induction false} SellerCountsAddUp(rs: seq<ResultadoAnalise>, v: nat)
    ensures Count(rs, DoVendedorCom(v, Positivo)) + Count(rs, DoVendedorCom(v, Negativo))
          + Count(rs, DoVendedorCom(v, Neutro)) == Count(rs, DoVendedor(v))
  {
    if rs != [] {
      SellerCountsAddUp(rs[1..], v);
    }
  }

  /** `getStats(vendedorId)`: the seller's analysed comments counted by
      sentiment, each count's percentage of the total (0 when the seller has
      none), the seller's products and pending notifications; the seller id
      and the raw counts are echoed unchanged. */
  function GetStats(loja: Loja, v: nat, agora: Instante): (r: DashboardStatsResponse)
    ensures r.vendedorId == v && r.dataConsulta == agora
    ensures r.totalComentarios == Count(loja.resultados, DoVendedor(v))
    ensures r.comentariosPositivos == Count(loja.resultados, DoVendedorCom(v, Positivo))
    ensures r.comentariosNegativos == Count(loja.resultados, DoVendedorCom(v, Negativo))
    ensures r.comentariosNeutros == Count(loja.resultados, DoVendedorCom(v, Neutro))
    ensures r.comentariosPositivos + r.comentariosNegativos + r.comentariosNeutros == r.totalComentarios
    ensures r.totalProdutos == Count(loja.produtos, ProdutoDoVendedor(v))
    ensures r.notificacoesPendentes == Notificacoes.ContarPendentesPorVendedor(loja.notificacoes, v)
    ensures r.totalComentarios == 0 ==>
      r.percentualPositivo == 0.0 && r.percentualNegativo == 0.0 && r.percentualNeutro == 0.0
    ensures r.percentualPositivo == Stats.CalcularPercentual(r.comentariosPositivos, r.totalComentarios)
    ensures r.percentualNegativo == Stats.CalcularPercentual(r.comentariosNegativos, r.totalComentarios)
    ensures r.percentualNeutro == Stats.CalcularPercentual(r.comentariosNeutros, r.totalComentarios)
    ensures 0.0 <= r.percentualPositivo <= 100.0 && 0.0 <= r.percentualNegativo <= 100.0
    ensures 0.0 <= r.percentualNeutro <= 100.0
  {
    var total := Count(loja.resultados, DoVendedor(v));
    var positivos := Count(loja.resultados, DoVendedorCom(v, Positivo));
    var negativos := Count(loja.resultados, DoVendedorCom(v, Negativo));
    var neutros := Count(loja.resultados, DoVendedorCom(v, Neutro));
    SellerCountsAddUp(loja.resultados, v);
    PercentualAgreesWithStats(positivos, total);
    PercentualAgreesWithStats(negativos, total);
    PercentualAgreesWithStats(neutros, total);
    if total > 0 then
      Stats.CalcularPercentualBounds(positivos, total);
      Stats.CalcularPercentualBounds(negativos, total);
      Stats.CalcularPercentualBounds(neutros, total);
      Build(loja, v, agora, total, positivos, negativos, neutros)
    else
      Build(loja, v, agora, total, positivos, negativos, neutros)
  }

  function Build(loja: Loja, v: nat, agora: Instante, total: nat, positivos: nat, negativos: nat, neutros: nat): DashboardStatsResponse {
    DashboardStatsResponse(
      v, total, Count(loja.produtos, ProdutoDoVendedor(v)), positivos, negativos, neutros,
      Percentual(positivos, total), Percentual(negativos, total), Percentual(neutros, total),
      Notificacoes.ContarPendentesPorVendedor(loja.notificacoes, v), agora)
  }

  /** `exportar(vendedorId)`: the seller's statistics together with one
      response per comment on the seller's products, echoing the seller id. */
  function Exportar(loja: Loja, v: nat, agora: Instante): (r: ExportResponse)
    ensures r.vendedorId == v && r.estatisticas.vendedorId == v
    ensures r.estatisticas == GetStats(loja, v, agora)
    ensures r.comentarios == Comentarios.ListarPorVendedor(loja, v)
    ensures |r.comentarios| == Count(loja.comentarios, Comentarios.DoVendedor(v))
  {
    ExportResponse(v, agora, GetStats(loja, v, agora), Comentarios.ListarPorVendedor(loja, v))
  }
}

=== FILE: domain.dfy ===
/** The marketplace entities of the comment backend, as immutable records.

    JPA associations become embedded values (a product holds its seller, a
    comment its product), timestamps are opaque instants supplied by the
    caller, and every repository is a sequence in insertion order. */
module Domain {
  import opened Common
  import opened Sentimentos

  /** A point in time (`LocalDateTime.now()`), supplied by the caller. */
  type Instante = int

  datatype Cliente = Cliente(id: nat, nome: string)

  datatype Produto = Produto(id: nat, nome: string, vendedor: Cliente)

  datatype Comentario = Comentario(
    id: nat,
    textoOriginal: string,
    nota: Option<int>,
    origem: string,
    idioma: string,
    dataCriacao: Instante,
    comprador: Option<Cliente>,
    produto: Produto)

  /** The analysis stored for one comment (one result per comment). */
  datatype ResultadoAnalise = ResultadoAnalise(
    id: nat,
    sentimento: Sentimento,
    probabilidade: real,
    ehCritico: bool,
    dataAnalise: Instante,
    comentario: Comentario)

  datatype StatusNotificacao = Pendente | Lida

  datatype CanalNotificacao = CanalDashboard

  /** The text of a critical-comment notification, kept as its three inputs:
      the product's name, the sentiment's constant name and the probability
      (the source formats them into one sentence). */
  datatype Mensagem = ComentarioCritico(produtoNome: string, sentimento: string, probabilidade: real)

  datatype Notificacao = Notificacao(
    id: nat,
    mensagem: Mensagem,
    status: StatusNotificacao,
    canal: CanalNotificacao,
    dataCriacao: Instante,
    dataEnvio: Option<Instante>,
    vendedor: Cliente,
    resultado: ResultadoAnalise)

  /** The reasons a lookup by identifier fails (`EntityNotFoundException`). */
  datatype Erro =
    | ProdutoNaoEncontrado(produtoId: nat)
    | ComentarioNaoEncontrado(comentarioId: nat)
    | NotificacaoNaoEncontrada(notificacaoId: nat)

  /** The backend's tables. */
  datatype Loja = Loja(
    clientes: seq<Cliente>,
    produtos: seq<Produto>,
    comentarios: seq<Comentario>,
    resultados: seq<ResultadoAnalise>,
    notificacoes: seq<Notificacao>)

  function ClienteId(c: Cliente): nat { c.id }
  function ProdutoId(p: Produto): nat { p.id }
  function ComentarioId(c: Comentario): nat { c.id }
  function ResultadoId(r: ResultadoAnalise): nat { r.id }
  function NotificacaoId(n: Notificacao): nat { n.id }

  /** The seller of the product a comment is about. */
  function VendedorDoComentario(c: Comentario): nat {
    c.produto.vendedor.id
  }

  /** `StatusNotificacao.name()`. */
  function StatusName(s: StatusNotificacao): (n: string)
    ensures n in {"PENDENTE", "LIDA"}
  {
    match s
    case Pendente => "PENDENTE"
    case Lida => "LIDA"
  }

  /** `CanalNotificacao.name()`. */
  function CanalName(c: CanalNotificacao): (n: string)
    ensures n == "DASHBOARD"
  {
    "DASHBOARD"
  }

  /** Distinct statuses have distinct names, so the name in a response
      identifies the stored status. */
  lemma StatusNameInjective(a: StatusNotificacao, b: StatusNotificacao)
    ensures StatusName(a) == StatusName(b) <==> a == b
  {
    if a != b {
      assert StatusName(a)[0] != StatusName(b)[0];
    }
  }
}

=== FILE: dsservice.dfy ===
/** The Python classification service: the `/predict` endpoint of `main.py`
    and the heuristic that `model.py` falls back on when no trained pipeline
    is loaded. Both look for negative markers in the lower-cased text and
    answer `Negativo` 0.85 or `Positivo` 0.75; the endpoint also strips the
    text and rejects anything shorter than three characters. */
module DsService {
  import opened Common
  import opened Text

  /** `ModelResult`, an immutable (label, probability) pair. */
  datatype ModelResult = ModelResult(rotulo: string, probability: real)

  /** An HTTP error answer (`HTTPException`). */
  datatype HttpError = HttpError(status: int, detail: string)

  const NegativeMarkers: seq<string> :=
    ["ruim", "p\U{E9}ssim", "horr", "defeito", "demor", "atras", "n\U{E3}o recomendo"]

  const Negativo: ModelResult := ModelResult("Negativo", 0.85)
  const Positivo: ModelResult := ModelResult("Positivo", 0.75)

  const MinLength: nat := 3

  /** Python's `any(m in s for m in markers)`, scanning the markers in order. */
  function AnyMarker(s: string, markers: seq<string>): (b: bool)
    ensures b <==> exists i :: 0 <= i < |markers| && Contains(s, markers[i])
  {
    if markers == [] then false
    else Contains(s, markers[0]) || AnyMarker(s, markers[1..])
  }

  /** The marker heuristic on the lower-cased text: `Negativo` 0.85 when a
      negative marker occurs, `Positivo` 0.75 otherwise. */
  function Heuristic(text: string): (r: ModelResult)
    ensures r == Negativo <==> exists i :: 0 <= i < |NegativeMarkers| && Contains(Lower(text), NegativeMarkers[i])
    ensures r == Negativo || r == Positivo
  {
    if AnyMarker(Lower(text), NegativeMarkers) then Negativo else Positivo
  }

  /** Every answer of the heuristic is `Negativo` or `Positivo` (never
      `Neutro`) with a probability between 0 and 1. */
  lemma HeuristicRange(text: string)
    ensures Heuristic(text).rotulo in {"Negativo", "Positivo"}
    ensures 0.0 <= Heuristic(text).probability <= 1.0
  {
  }

  /** A trained pipeline: whatever label and probability its best class has. */
  type Pipeline = string -> ModelResult

  /** `SentimentModel`, with its pipeline absent when no model file was found. */
  datatype SentimentModel = SentimentModel(modelPath: string, pipeline: Option<Pipeline>)

  /** `SentimentModel.predict`: the trained pipeline when one is loaded, the
      marker heuristic otherwise. The fallback has no length check and answers
      every string. */
  function ModelPredict(m: SentimentModel, text: string): (r: ModelResult)
    ensures m.pipeline.None? ==> r == Heuristic(text)
    ensures m.pipeline.Some? ==> r == m.pipeline.value(text)
  {
    match m.pipeline
    case None => Heuristic(text)
    case Some(p) => p(text)
  }

  /** The endpoint's text: a missing text counts as empty, then it is stripped. */
  function Stripped(text: Option<string>): string {
    Trim(text.GetOr(""), IsPythonSpace)
  }

  /** `predict` in `main.py`: a stripped text shorter than three characters
      (a missing one included) is rejected with 400; otherwise the marker
      heuristic is applied to the stripped text. */
  function PredictApi(text: Option<string>): (r: Result<ModelResult, HttpError>)
    ensures r.Failure? <==> |Stripped(text)| < MinLength
    ensures r.Failure? ==> r.error.status == 400
    ensures r.Success? ==> r.value == Heuristic(Stripped(text))
  {
    var t := Stripped(text);
    if |t| < MinLength then
      Failure(HttpError(400, "Campo 'text' deve ter pelo menos 3 caracteres."))
    else if AnyMarker(Lower(t), NegativeMarkers) then Success(Negativo)
    else Success(Positivo)
  }

  /** Every negative marker is non-empty and neither starts nor ends with whitespace. */
  lemma MarkersUnpadded(i: nat)
    requires i < |NegativeMarkers|
    ensures var m := NegativeMarkers[i];
      |m| > 0 && !IsPythonSpace(m[0]) && !IsPythonSpace(m[|m| - 1])
  {
  }

  /** Stripping does not change whether a marker occurs, so the endpoint and
      the model's fallback agree on every text the endpoint accepts. */
  lemma PredictAgreesWithFallback(text: string)
    requires PredictApi(Some(text)).Success?
    ensures PredictApi(Some(text)).value == ModelPredict(SentimentModel("", None), text)
  {
    var t := Stripped(Some(text));
    forall i | 0 <= i < |NegativeMarkers|
      ensures Contains(Lower(t), NegativeMarkers[i]) <==> Contains(Lower(text), NegativeMarkers[i])
    {
      MarkersUnpadded(i);
      StripPreservesMarker(text, NegativeMarkers[i]);
    }
  }

  /** Lower-casing after upper-casing is lower-casing. */
  lemma LowerUpper(s: string)
    ensures Lower(Upper(s)) == Lower(s)
  {
    forall i | 0 <= i < |s|
      ensures Lower(Upper(s))[i] == Lower(s)[i]
    {
      assert LowerChar(UpperChar(s[i])) == LowerChar(s[i]);
    }
  }

  /** Marker matching ignores letter case: upper-casing the text does not
      change the heuristic's answer. */
  lemma HeuristicCaseInsensitive(text: string)
    ensures Heuristic(Upper(text)) == Heuristic(text)
  {
    LowerUpper(text);
  }

  /** A missing text and a text of only whitespace are rejected with 400. */
  lemma PredictRejectsEmpty(w: string)
    requires forall i :: 0 <= i < |w| ==> IsPythonSpace(w[i])
    ensures PredictApi(None).Failure? && PredictApi(None).error.status == 400
    ensures PredictApi(Some(w)).Failure?
  {
    TrimUnique("", IsPythonSpace, 0, 0);
    TrimUnique(w, IsPythonSpace, 0, 0);
  }
}

=== FILE: notificacoes.dfy ===
/** The seller-notification state machine of `NotificacaoService`.

    A notification is created `Pendente`; marking one notification, or all of
    a seller's pending notifications, as read moves it to `Lida`; nothing ever
    moves it back. The notification table is a sequence updated by pure
    functions. */
module Notificacoes {
  import opened Common
  import opened Sentimentos
  import opened Domain

  /** `NotificacaoResponse`: statuses and channels as their constant names. */
  datatype NotificacaoResponse = NotificacaoResponse(
    id: nat,
    mensagem: Mensagem,
    status: string,
    canal: string,
    dataCriacao: Instante,
    dataEnvio: Option<Instante>,
    vendedorId: nat,
    comentarioId: nat,
    produtoId: nat,
    produtoNome: string)

  /** Notifications addressed to seller `v`. */
  function DoVendedor(v: nat): Notificacao -> bool {
    (n: Notificacao) => n.vendedor.id == v
  }

  /** Notifications addressed to seller `v` that are still pending. */
  function PendenteDe(v: nat): Notificacao -> bool {
    (n: Notificacao) => n.vendedor.id == v && n.status == Pendente
  }

  /** The critical-comment message: the product's name, the sentiment's constant
      name (which reads back as the same sentiment) and the probability as a
      percentage. */
  function MensagemCritica(r: ResultadoAnalise): (m: Mensagem)
    ensures m.produtoNome == r.comentario.produto.nome
    ensures FromLabel(Some(m.sentimento)) == r.sentimento
    ensures m.probabilidade == r.probabilidade * 100.0
  {
    FromLabelName(r.sentimento);
    ComentarioCritico(r.comentario.produto.nome, Name(r.sentimento), r.probabilidade * 100.0)
  }

  /** `criarNotificacaoComentarioCritico`: appends one new pending notification
      on the dashboard channel for `vendedor` about `resultado`, under an
      identifier no stored notification uses. */
  function CriarNotificacaoComentarioCritico(
    store: seq<Notificacao>, vendedor: Cliente, resultado: ResultadoAnalise, agora: Instante
  ): (r: (seq<Notificacao>, Notificacao))
    ensures r.0 == store + [r.1]
    ensures r.1.status == Pendente && r.1.canal == CanalDashboard
    ensures r.1.vendedor == vendedor && r.1.resultado == resultado
    ensures r.1.dataCriacao == agora && r.1.dataEnvio.None?
    ensures r.1.mensagem == MensagemCritica(resultado)
    ensures forall i :: 0 <= i < |store| ==> store[i].id != r.1.id
  {
    var n := Notificacao(
      NextId(store, NotificacaoId), MensagemCritica(resultado), Pendente, CanalDashboard,
      agora, None, vendedor, resultado);
    (store + [n], n)
  }

  /** The created notification is found by its identifier, at the end of the table. */
  lemma CriarThenFind(store: seq<Notificacao>, vendedor: Cliente, resultado: ResultadoAnalise, agora: Instante)
    ensures var r := CriarNotificacaoComentarioCritico(store, vendedor, resultado, agora);
      FindById(r.0, NotificacaoId, r.1.id) == Some(|store|)
  {
    var r := CriarNotificacaoComentarioCritico(store, vendedor, resultado, agora);
    assert forall j :: 0 <= j < |store| ==> NotificacaoId(r.0[j]) != r.1.id;
    assert NotificacaoId(r.0[|store|]) == r.1.id;
  }

  /** Creating a notification adds one to its seller's pending count and leaves
      every other seller's count alone. */
  lemma CriarCount(store: seq<Notificacao>, vendedor: Cliente, resultado: ResultadoAnalise, agora: Instante, v: nat)
    ensures var r := CriarNotificacaoComentarioCritico(store, vendedor, resultado, agora);
      ContarPendentesPorVendedor(r.0, v)
        == ContarPendentesPorVendedor(store, v) + (if v == vendedor.id then 1 else 0)
  {
    var r := CriarNotificacaoComentarioCritico(store, vendedor, resultado, agora);
    CountAppend(store, [r.1], PendenteDe(v));
  }

  /** `contarPendentesPorVendedor`: the number of `v`'s notifications whose
      status is `Pendente`. */
  function ContarPendentesPorVendedor(store: seq<Notificacao>, v: nat): (n: nat)
    ensures n <= Count(store, DoVendedor(v))
    ensures n == 0 <==> forall i :: 0 <= i < |store| && store[i].vendedor.id == v ==> store[i].status == Lida
  {
    CountMonotonic(store, PendenteDe(v), DoVendedor(v));
    Count(store, PendenteDe(v))
  }

  /** The private `toResponse`: the status and channel as constant names, the
      seller, comment and product as their identifiers. */
  function ToResponse(n: Notificacao): (r: NotificacaoResponse)
    ensures r.id == n.id && r.vendedorId == n.vendedor.id
    ensures r.status == "LIDA" <==> n.status == Lida
    ensures r.status == "PENDENTE" <==> n.status == Pendente
    ensures r.comentarioId == n.resultado.comentario.id
    ensures r.produtoId == n.resultado.comentario.produto.id
  {
    StatusNameInjective(n.status, Lida);
    StatusNameInjective(n.status, Pendente);
    NotificacaoResponse(
      n.id, n.mensagem, StatusName(n.status), CanalName(n.canal), n.dataCriacao, n.dataEnvio,
      n.vendedor.id, n.resultado.comentario.id, n.resultado.comentario.produto.id,
      n.resultado.comentario.produto.nome)
  }

  /** Responses for `ns`, in order. */
  function Respostas(ns: seq<Notificacao>): (r: seq<NotificacaoResponse>)
    ensures |r| == |ns|
    ensures forall i :: 0 <= i < |ns| ==> r[i] == ToResponse(ns[i])
  {
    seq(|ns|, i requires 0 <= i < |ns| => ToResponse(ns[i]))
  }

  /** Every response among `Respostas(ns)` is the response of some notification of `ns`. */
  lemma RespostasDe(ns: seq<Notificacao>)
    ensures forall x <- Respostas(ns) :: exists n <- ns :: x == ToResponse(n)
  {
    var r := Respostas(ns);
    forall x <- r
      ensures exists n <- ns :: x == ToResponse(n)
    {
      var i :| 0 <= i < |r| && r[i] == x;
      assert ns[i] in ns;
    }
  }

  /** `listarPorVendedor`: one response for each of `v`'s notifications, and
      none for anyone else's. */
  function ListarPorVendedor(store: seq<Notificacao>, v: nat): (r: seq<NotificacaoResponse>)
    ensures |r| == Count(store, DoVendedor(v))
    ensures forall i :: 0 <= i < |r| ==> r[i].vendedorId == v
    ensures forall i :: 0 <= i < |store| && store[i].vendedor.id == v ==> ToResponse(store[i]) in r
    ensures forall x <- r :: exists n <- store :: n.vendedor.id == v && x == ToResponse(n)
  {
    var f := Filter(store, DoVendedor(v));
    var r := Respostas(f);
    assert forall i :: 0 <= i < |store| && store[i].vendedor.id == v ==>
      exists j :: 0 <= j < |f| && f[j] == store[i] && r[j] == ToResponse(store[i]);
    RespostasDe(f);
    r
  }

  /** `listarPendentesPorVendedor`: one response for each of `v`'s pending
      notifications, and none for any other notification. */
  function ListarPendentesPorVendedor(store: seq<Notificacao>, v: nat): (r: seq<NotificacaoResponse>)
    ensures |r| == ContarPendentesPorVendedor(store, v)
    ensures forall i :: 0 <= i < |r| ==> r[i].vendedorId == v && r[i].status == "PENDENTE"
    ensures forall i :: 0 <= i < |store| && PendenteDe(v)(store[i]) ==> ToResponse(store[i]) in r
    ensures forall x <- r :: exists n <- store :: n.vendedor.id == v && n.status == Pendente && x == ToResponse(n)
  {
    var f := Filter(store, PendenteDe(v));
    var r := Respostas(f);
    assert forall i :: 0 <= i < |store| && PendenteDe(v)(store[i]) ==>
      exists j :: 0 <= j < |f| && f[j] == store[i] && r[j] == ToResponse(store[i]);
    RespostasDe(f);
    r
  }

  /** `n` marked as read; nothing else about it changes. */
  function MarcadaLida(n: Notificacao): Notificacao {
    n.(status := Lida)
  }

  /** `marcarComoLida`: an unknown identifier fails with not-found (and the
      table is left as it was); otherwise exactly the notification with that
      identifier becomes `Lida`, whatever its previous status, and the answer
      is that marked notification's response. */
  function MarcarComoLida(store: seq<Notificacao>, id: nat): (r: Result<(seq<Notificacao>, NotificacaoResponse), Erro>)
    ensures r.Failure? <==> forall i :: 0 <= i < |store| ==> store[i].id != id
    ensures r.Failure? ==> r.error == NotificacaoNaoEncontrada(id)
    ensures r.Success? ==> r.value.1.id == id && r.value.1.status == "LIDA"
    ensures r.Success? ==>
      exists k :: 0 <= k < |store| && store[k].id == id && r.value.0 == store[k := MarcadaLida(store[k])] &&
        r.value.1 == ToResponse(MarcadaLida(store[k]))
  {
    match FindById(store, NotificacaoId, id)
    case None => Failure(NotificacaoNaoEncontrada(id))
    case Some(k) =>
      var n := MarcadaLida(store[k]);
      Success((store[k := n], ToResponse(n)))
  }

  /** Marking as read a second time changes nothing. */
  lemma MarcarComoLidaIdempotente(store: seq<Notificacao>, id: nat)
    requires MarcarComoLida(store, id).Success?
    ensures MarcarComoLida(MarcarComoLida(store, id).value.0, id).Success?
    ensures MarcarComoLida(MarcarComoLida(store, id).value.0, id).value.0
         == MarcarComoLida(store, id).value.0
  {
    var k := FindById(store, NotificacaoId, id).value;
    var s1 := MarcarComoLida(store, id).value.0;
    assert s1 == store[k := MarcadaLida(store[k])];
    assert forall j :: 0 <= j < k ==> NotificacaoId(s1[j]) != id;
    assert NotificacaoId(s1[k]) == id;
  }

  /** Marking a notification as read lowers its seller's pending count by one if
      it was pending, and changes no other count. */
  lemma MarcarComoLidaCount(store: seq<Notificacao>, id: nat, v: nat)
    requires MarcarComoLida(store, id).Success?
    ensures var k := FindById(store, NotificacaoId, id).value;
      ContarPendentesPorVendedor(MarcarComoLida(store, id).value.0, v) + (if PendenteDe(v)(store[k]) then 1 else 0)
        == ContarPendentesPorVendedor(store, v)
  {
    var k := FindById(store, NotificacaoId, id).value;
    CountUpdate(store, k, MarcadaLida(store[k]), PendenteDe(v));
  }

  /** `marcarTodasComoLidas`: every pending notification of seller `v` becomes
      `Lida`; afterwards `v` has none pending, and the other sellers'
      notifications and `v`'s already-read ones are untouched. */
  function MarcarTodasComoLidas(store: seq<Notificacao>, v: nat): (r: seq<Notificacao>)
    ensures |r| == |store|
    ensures ContarPendentesPorVendedor(r, v) == 0
    ensures forall i :: 0 <= i < |store| && store[i].vendedor.id != v ==> r[i] == store[i]
    ensures forall i :: 0 <= i < |store| && store[i].status == Lida ==> r[i] == store[i]
    ensures forall i :: 0 <= i < |store| ==> r[i] == store[i].(status := r[i].status)
  {
    seq(|store|, i requires 0 <= i < |store| =>
      if PendenteDe(v)(store[i]) then MarcadaLida(store[i]) else store[i])
  }

  /** Marking all of `v`'s notifications leaves every other seller's pending count as it was. */
  lemma MarcarTodasOutrosVendedores(store: seq<Notificacao>, v: nat, w: nat)
    requires w != v
    ensures ContarPendentesPorVendedor(MarcarTodasComoLidas(store, v), w) == ContarPendentesPorVendedor(store, w)
  {
    var r := MarcarTodasComoLidas(store, v);
    CountPointwise(store, PendenteDe(w), r, PendenteDe(w));
  }

  /** Marking all as read twice is marking them once. */
  lemma MarcarTodasIdempotente(store: seq<Notificacao>, v: nat)
    ensures MarcarTodasComoLidas(MarcarTodasComoLidas(store, v), v) == MarcarTodasComoLidas(store, v)
  {
  }

  /** The operations of the notification service that change the table. */
  datatype Operacao =
    | Criar(vendedor: Cliente, resultado: ResultadoAnalise, agora: Instante)
    | MarcarLida(id: nat)
    | MarcarTodas(vendedorId: nat)

  /** The table after one operation; a failed `MarcarLida` leaves it unchanged. */
  function Passo(store: seq<Notificacao>, op: Operacao): seq<Notificacao> {
    match op
    case Criar(vend, res, agora) => CriarNotificacaoComentarioCritico(store, vend, res, agora).0
    case MarcarLida(id) =>
      (match MarcarComoLida(store, id)
       case Success(p) => p.0
       case Failure(_) => store)
    case MarcarTodas(v) => MarcarTodasComoLidas(store, v)
  }

  /** The table after a sequence of operations, applied left to right. */
  function Executar(store: seq<Notificacao>, ops: seq<Operacao>): seq<Notificacao>
    decreases |ops|
  {
    if ops == [] then store else Executar(Passo(store, ops[0]), ops[1..])
  }

  /** `b` extends `a` and every notification of `a` keeps its identity, seller
      and result, while its status can only go from `Pendente` to `Lida`. */
  predicate Avanca(a: seq<Notificacao>, b: seq<Notificacao>) {
    |a| <= |b| &&
    forall i :: 0 <= i < |a| ==>
      b[i] == a[i].(status := b[i].status) && (a[i].status == Lida ==> b[i].status == Lida)
  }

  /** Notifications appended after position `from` are all pending. */
  predicate NovasPendentes(b: seq<Notificacao>, from: nat) {
    forall i :: from <= i < |b| ==> b[i].status == Pendente
  }

  /** Every single operation only appends pending notifications and only
      moves existing ones from `Pendente` to `Lida`. */
  lemma PassoAvanca(store: seq<Notificacao>, op: Operacao)
    ensures Avanca(store, Passo(store, op))
    ensures NovasPendentes(Passo(store, op), |store|)
  {
    match op
    case Criar(vend, res, agora) =>
    case MarcarLida(id) =>
    case MarcarTodas(v) =>
  }

  lemma AvancaTransitive(a: seq<Notificacao>, b: seq<Notificacao>, c: seq<Notificacao>)
    requires Avanca(a, b) && Avanca(b, c)
    ensures Avanca(a, c)
  {
  }

  /** No sequence of operations moves a notification from `Lida` back to
      `Pendente`, so `Pendente` is only ever set when a notification is created. */
  lemma {:induction false} StatusOnlyAdvances(store: seq<Notificacao>, ops: seq<Operacao>)
    ensures Avanca(store, Executar(store, ops))
    decreases |ops|
  {
    if ops != [] {
      var s1 := Passo(store, ops[0]);
      PassoAvanca(store, ops[0]);
      StatusOnlyAdvances(s1, ops[1..]);
      AvancaTransitive(store, s1, Executar(s1, ops[1..]));
    }
  }
}

=== FILE: pipeline.dfy ===
/** The components put together: the backends calling the Python service
    while it answers with its marker heuristic. A 2xx answer becomes the
    classifier's prediction and the 400 for a short text becomes a classifier
    failure, as `DsServiceClient.predict` turns a non-2xx status into an
    exception. */
module Pipeline {
  import opened Common
  import opened Text
  import opened Sentimentos
  import opened Domain
  import opened Classificacao
  import DsService
  import Comentarios
  import SentimentApi

  /** The classification service as the backends see it. */
  function ServicoHeuristico(text: string): (r: Result<DsPrediction, ClassifierError>)
    ensures r.Failure? <==> DsService.PredictApi(Some(text)).Failure?
    ensures r.Success? ==>
      r.value.rotulo == Some(DsService.PredictApi(Some(text)).value.rotulo) &&
      r.value.probability == DsService.PredictApi(Some(text)).value.probability
  {
    match DsService.PredictApi(Some(text))
    case Failure(e) => Failure(ClassifierError("Falha na comunica\U{E7}\U{E3}o com o servi\U{E7}o de ML"))
    case Success(m) => Success(DsPrediction(Some(m.rotulo), m.probability))
  }

  /** Texts the service accepts: at least three characters once stripped. */
  predicate Aceito(text: string) {
    |DsService.Stripped(Some(text))| >= DsService.MinLength
  }

  /** Texts in which some negative marker occurs, ignoring letter case. */
  predicate TemMarcador(text: string) {
    exists i :: 0 <= i < |DsService.NegativeMarkers| && Contains(Lower(text), DsService.NegativeMarkers[i])
  }

  /** The heuristic's two labels, read by the comment service's mapping. */
  lemma MapearHeuristicLabels()
    ensures Comentarios.MapearSentimento(Some("Negativo")) == Negativo
    ensures Comentarios.MapearSentimento(Some("Positivo")) == Positivo
  {
    assert Upper("Negativo") == "NEGATIVO";
    assert Upper("Positivo") == "POSITIVO";
  }

  /** On an accepted text the service answers `Negativo` 0.85 exactly when a
      marker occurs, and `Positivo` 0.75 otherwise. */
  lemma ServicoAnswers(text: string)
    requires Aceito(text)
    ensures ServicoHeuristico(text).Success?
    ensures TemMarcador(text) ==> ServicoHeuristico(text).value == DsPrediction(Some("Negativo"), 0.85)
    ensures !TemMarcador(text) ==> ServicoHeuristico(text).value == DsPrediction(Some("Positivo"), 0.75)
  {
    DsService.PredictAgreesWithFallback(text);
  }

  /** With the heuristic service behind it, a new comment is critical exactly
      when its text is long enough to be accepted and contains a negative
      marker; a text the service rejects is stored as `Neutro`. */
  lemma CriticoSeMarcador(comentario: Comentario, id: nat, agora: Instante)
    ensures var r := Comentarios.AnalisarSentimento(ServicoHeuristico, comentario, id, agora);
      (r.ehCritico <==> Aceito(comentario.textoOriginal) && TemMarcador(comentario.textoOriginal)) &&
      (!Aceito(comentario.textoOriginal) ==> r.sentimento == Neutro)
  {
    var t := comentario.textoOriginal;
    MapearHeuristicLabels();
    if Aceito(t) {
      ServicoAnswers(t);
    }
  }

  /** With the heuristic service behind it, the public API fails exactly on
      the texts the service rejects, and otherwise records `NEGATIVO` exactly
      when a marker occurs, answering with the matching display label. */
  lemma ApiSeMarcador(analises: seq<SentimentApi.AnaliseResultado>, texto: string, agora: Instante, tempo: int)
    ensures var r := SentimentApi.AnalisarApi(ServicoHeuristico, analises, texto, agora, tempo);
      (r.Failure? <==> !Aceito(texto)) &&
      (r.Success? ==>
        |r.value.0| == |analises| + 1 &&
        (r.value.0[|analises|].sentimento == Negativo <==> TemMarcador(texto)) &&
        r.value.1.previsao == (if TemMarcador(texto) then "Negativo" else "Positivo"))
  {
    if Aceito(texto) {
      ServicoAnswers(texto);
      FromLabelGetLabel(Negativo);
      FromLabelGetLabel(Positivo);
    }
  }

  /** In a batch against the heuristic service, a text the service rejects
      becomes an `"ERRO"` entry with probability 0.0. */
  lemma BatchRejeitaCurtos(texto: string)
    requires !Aceito(texto)
    ensures SentimentApi.ItemBatch(ServicoHeuristico, texto)
      == SentimentApi.BatchItemResponse(texto, SentimentApi.PrevisaoErro, 0.0)
  {
  }
}

=== FILE: sentimentapi.dfy ===
/** The analysis service of the public sentiment API (`SentimentService` of
    `com.sentimentapi`): one text is classified, its label normalised and the
    analysis recorded; a batch runs the same analysis item by item, turning a
    failed item into an error entry instead of failing the batch. */
module SentimentApi {
  import opened Common
  import opened Sentimentos
  import opened Classificacao
  import opened Domain

  /** One row of the `analise_resultado` table. */
  datatype AnaliseResultado = AnaliseResultado(
    textoOriginal: string,
    sentimento: Sentimento,
    probabilidade: real,
    dataAnalise: Instante,
    tempoProcessamentoMs: Option<int>,
    origem: string,
    batchId: Option<string>)

  datatype SentimentResponse = SentimentResponse(previsao: string, probabilidade: real)

  datatype BatchItemResponse = BatchItemResponse(texto: string, previsao: string, probabilidade: real)

  datatype BatchSentimentResponse = BatchSentimentResponse(
    batchId: string,
    total: nat,
    resultados: seq<BatchItemResponse>,
    tempoTotalMs: int)

  const OrigemApi: string := "API"
  const OrigemBatch: string := "BATCH"
  const PrevisaoErro: string := "ERRO"

  /** The row recorded for a successful classification. */
  function Registro(
    texto: string, p: DsPrediction, origem: string, batchId: Option<string>, agora: Instante, tempo: int
  ): AnaliseResultado {
    AnaliseResultado(texto, FromLabel(p.rotulo), p.probability, agora, Some(tempo), origem, batchId)
  }

  /** `analisar(request, origem, batchId)`: a classifier failure propagates and
      nothing is recorded; otherwise exactly one row with the given origin and
      batch id is appended, and the answer is the normalised sentiment's display
      label with the classifier's probability passed through unchanged. */
  function Analisar(
    classify: Classifier, analises: seq<AnaliseResultado>, texto: string,
    origem: string, batchId: Option<string>, agora: Instante, tempo: int
  ): (r: Result<(seq<AnaliseResultado>, SentimentResponse), ClassifierError>)
    ensures r.Failure? <==> classify(texto).Failure?
    ensures r.Failure? ==> r.error == classify(texto).error
    ensures r.Success? ==> |r.value.0| == |analises| + 1 && r.value.0[..|analises|] == analises
    ensures r.Success? ==>
      var p := classify(texto).value;
      var rec := r.value.0[|analises|];
      rec.textoOriginal == texto && rec.origem == origem && rec.batchId == batchId &&
      rec.dataAnalise == agora && rec.tempoProcessamentoMs == Some(tempo) &&
      rec.sentimento == FromLabel(p.rotulo) && rec.probabilidade == p.probability &&
      r.value.1.previsao == GetLabel(rec.sentimento) && r.value.1.probabilidade == p.probability
  {
    match classify(texto)
    case Failure(e) => Failure(e)
    case Success(p) =>
      var rec := Registro(texto, p, origem, batchId, agora, tempo);
      assert (analises + [rec])[..|analises|] == analises;
      Success((analises + [rec], SentimentResponse(GetLabel(rec.sentimento), p.probability)))
  }

  /** The single-text `analisar(request)`: origin `"API"` and no batch. */
  function AnalisarApi(
    classify: Classifier, analises: seq<AnaliseResultado>, texto: string, agora: Instante, tempo: int
  ): (r: Result<(seq<AnaliseResultado>, SentimentResponse), ClassifierError>)
    ensures r.Failure? <==> classify(texto).Failure?
    ensures r.Success? ==>
      |r.value.0| == |analises| + 1 &&
      r.value.0[|analises|].origem == OrigemApi && r.value.0[|analises|].batchId.None?
  {
    Analisar(classify, analises, texto, OrigemApi, None, agora, tempo)
  }

  /** The answer's display label reads back, through `fromLabel`, as the
      sentiment that was recorded. */
  lemma AnalisarPrevisaoRoundTrip(
    classify: Classifier, analises: seq<AnaliseResultado>, texto: string,
    origem: string, batchId: Option<string>, agora: Instante, tempo: int)
    requires Analisar(classify, analises, texto, origem, batchId, agora, tempo).Success?
    ensures var r := Analisar(classify, analises, texto, origem, batchId, agora, tempo).value;
      FromLabel(Some(r.1.previsao)) == r.0[|analises|].sentimento
  {
    var r := Analisar(classify, analises, texto, origem, batchId, agora, tempo).value;
    FromLabelGetLabel(r.0[|analises|].sentimento);
  }

  /** The batch entry for one text: the analysis's display label and
      probability, or the error marker with probability 0.0 when the classifier
      fails. */
  function ItemBatch(classify: Classifier, texto: string): (item: BatchItemResponse)
    ensures item.texto == texto
  {
    match classify(texto)
    case Failure(_) => BatchItemResponse(texto, PrevisaoErro, 0.0)
    case Success(p) => BatchItemResponse(texto, GetLabel(FromLabel(p.rotulo)), p.probability)
  }

  /** A batch entry is `"ERRO"` exactly when its text failed, and then has
      probability 0.0; otherwise it is a display label that reads back as the
      classifier's normalised label, with the classifier's probability. */
  lemma ItemBatchCorrect(classify: Classifier, texto: string)
    ensures var item := ItemBatch(classify, texto);
      (item.previsao == PrevisaoErro <==> classify(texto).Failure?) &&
      (classify(texto).Failure? ==> item.probabilidade == 0.0) &&
      (classify(texto).Success? ==>
        FromLabel(Some(item.previsao)) == FromLabel(classify(texto).value.rotulo) &&
        item.probabilidade == classify(texto).value.probability)
  {
    if classify(texto).Success? {
      var s := FromLabel(classify(texto).value.rotulo);
      FromLabelGetLabel(s);
      GetLabelNotErro(s);
    }
  }

  /** No display label is the batch's error marker. */
  lemma GetLabelNotErro(s: Sentimento)
    ensures GetLabel(s) != PrevisaoErro
  {
    assert |GetLabel(s)| != |PrevisaoErro|;
  }

  /** The rows a batch records: one per successfully classified text, in
      order, each with origin `"BATCH"` and the batch's id. */
  function Persistidos(
    classify: Classifier, texts: seq<string>, batchId: string, agora: Instante, tempoItem: nat -> int
  ): seq<AnaliseResultado>
    decreases |texts|
  {
    if texts == [] then []
    else
      var n := |texts| - 1;
      Persistidos(classify, texts[..n], batchId, agora, tempoItem) +
      RegistroBatch(classify, texts[n], batchId, agora, tempoItem(n))
  }

  /** The row a batch item records: none when the classifier fails. */
  function RegistroBatch(classify: Classifier, texto: string, batchId: string, agora: Instante, tempo: int): seq<AnaliseResultado> {
    match classify(texto)
    case Success(p) => [Registro(texto, p, OrigemBatch, Some(batchId), agora, tempo)]
    case Failure(_) => []
  }

  /** Texts the classifier answers. */
  function Classificavel(classify: Classifier): string -> bool {
    (t: string) => classify(t).Success?
  }

  /** A batch records exactly as many rows as it has successful items. */
  lemma {:induction false} PersistidosCount(
    classify: Classifier, texts: seq<string>, batchId: string, agora: Instante, tempoItem: nat -> int)
    ensures |Persistidos(classify, texts, batchId, agora, tempoItem)| == Count(texts, Classificavel(classify))
    decreases |texts|
  {
    if texts != [] {
      var n := |texts| - 1;
      PersistidosCount(classify, texts[..n], batchId, agora, tempoItem);
      assert texts == texts[..n] + [texts[n]];
      CountAppend(texts[..n], [texts[n]], Classificavel(classify));
    }
  }

  /** Every row a batch records has origin `"BATCH"` and the one batch id. */
  lemma {:induction false} PersistidosOrigem(
    classify: Classifier, texts: seq<string>, batchId: string, agora: Instante, tempoItem: nat -> int)
    ensures forall r <- Persistidos(classify, texts, batchId, agora, tempoItem) ::
      r.origem == OrigemBatch && r.batchId == Some(batchId)
    decreases |texts|
  {
    if texts != [] {
      var n := |texts| - 1;
      PersistidosOrigem(classify, texts[..n], batchId, agora, tempoItem);
    }
  }

  /** The rows recorded for one more text: those of the earlier texts, then the
      new text's row if it was classified. */
  lemma PersistidosSnoc(
    classify: Classifier, texts: seq<string>, i: nat, batchId: string, agora: Instante, tempoItem: nat -> int)
    requires i < |texts|
    ensures Persistidos(classify, texts[..i + 1], batchId, agora, tempoItem)
      == Persistidos(classify, texts[..i], batchId, agora, tempoItem) +
         RegistroBatch(classify, texts[i], batchId, agora, tempoItem(i))
  {
    assert texts[..i + 1][..i] == texts[..i];
  }

  /** One iteration of the batch loop: `analisar` with origin `"BATCH"`, its
      failure caught and turned into the error entry. */
  function PassoBatch(
    classify: Classifier, store: seq<AnaliseResultado>, texto: string,
    batchId: string, agora: Instante, tempo: int
  ): (r: (seq<AnaliseResultado>, BatchItemResponse))
    ensures r.0 == store + RegistroBatch(classify, texto, batchId, agora, tempo)
    ensures r.1 == ItemBatch(classify, texto)
  {
    match Analisar(classify, store, texto, OrigemBatch, Some(batchId), agora, tempo)
    case Success(ok) =>
      assert ok.0 == store + [ok.0[|store|]];
      (ok.0, BatchItemResponse(texto, ok.1.previsao, ok.1.probabilidade))
    case Failure(_) => (store, BatchItemResponse(texto, PrevisaoErro, 0.0))
  }

  /** What the batch loop has built after its first `i` texts: one entry per
      text so far, and the rows of those texts after the earlier ones. */
  predicate BatchInv(
    classify: Classifier, analises: seq<AnaliseResultado>, texts: seq<string>, batchId: string,
    agora: Instante, tempoItem: nat -> int, i: nat, resultados: seq<BatchItemResponse>, store: seq<AnaliseResultado>)
  {
    i <= |texts| && |resultados| == i &&
    (forall j :: 0 <= j < i ==> resultados[j] == ItemBatch(classify, texts[j])) &&
    store == analises + Persistidos(classify, texts[..i], batchId, agora, tempoItem)
  }

  /** One loop iteration keeps the loop's invariant. */
  lemma BatchStep(
    classify: Classifier, analises: seq<AnaliseResultado>, texts: seq<string>, batchId: string,
    agora: Instante, tempoItem: nat -> int, i: nat, resultados: seq<BatchItemResponse>, store: seq<AnaliseResultado>)
    requires i < |texts|
    requires BatchInv(classify, analises, texts, batchId, agora, tempoItem, i, resultados, store)
    ensures var p := PassoBatch(classify, store, texts[i], batchId, agora, tempoItem(i));
      BatchInv(classify, analises, texts, batchId, agora, tempoItem, i + 1, resultados + [p.1], p.0)
  {
    PersistidosSnoc(classify, texts, i, batchId, agora, tempoItem);
    var p := PassoBatch(classify, store, texts[i], batchId, agora, tempoItem(i));
    var rs := resultados + [p.1];
    assert forall j :: 0 <= j < i ==> rs[j] == resultados[j];
    assert rs[i] == ItemBatch(classify, texts[i]);
    assert p.0 == analises + (Persistidos(classify, texts[..i], batchId, agora, tempoItem)
      + RegistroBatch(classify, texts[i], batchId, agora, tempoItem(i)));
  }

  /** `analisarBatch`: every text is analysed with origin `"BATCH"` under the
      one batch id; a failing item becomes an error entry and the loop carries
      on. The answer has one entry per text, in order, and `total` is their
      number. */
  method AnalisarBatch(
    classify: Classifier, analises: seq<AnaliseResultado>, texts: seq<string>,
    batchId: string, agora: Instante, tempoItem: nat -> int, tempoTotal: int
  ) returns (resp: BatchSentimentResponse, store: seq<AnaliseResultado>)
    ensures resp.batchId == batchId && resp.tempoTotalMs == tempoTotal
    ensures resp.total == |texts| && |resp.resultados| == |texts|
    ensures forall i :: 0 <= i < |texts| ==> resp.resultados[i] == ItemBatch(classify, texts[i])
    ensures store == analises + Persistidos(classify, texts, batchId, agora, tempoItem)
  {
    var resultados: seq<BatchItemResponse> := [];
    store := analises;
    for i := 0 to |texts|
      invariant BatchInv(classify, analises, texts, batchId, agora, tempoItem, i, resultados, store)
    {
      BatchStep(classify, analises, texts, batchId, agora, tempoItem, i, resultados, store);
      var passo := PassoBatch(classify, store, texts[i], batchId, agora, tempoItem(i));
      store := passo.0;
      resultados := resultados + [passo.1];
    }
    assert texts[..|texts|] == texts;
    resp := BatchSentimentResponse(batchId, |resultados|, resultados, tempoTotal);
  }
}

=== FILE: sentimento.dfy ===
/** The three canonical sentiments, their display labels and the tolerant
    label normaliser that maps a classifier's raw label onto them. */
module Sentimentos {
  import opened Common
  import opened Text

  datatype Sentimento = Positivo | Negativo | Neutro

  /** The display label of a sentiment (the enum's `label` field). */
  function GetLabel(s: Sentimento): (l: string)
    ensures l in {"Positivo", "Negativo", "Neutro"}
  {
    match s
    case Positivo => "Positivo"
    case Negativo => "Negativo"
    case Neutro => "Neutro"
  }

  /** The enum constant's name, as Java's `name()` spells it. */
  function Name(s: Sentimento): (n: string)
    ensures n in {"POSITIVO", "NEGATIVO", "NEUTRO"}
  {
    match s
    case Positivo => "POSITIVO"
    case Negativo => "NEGATIVO"
    case Neutro => "NEUTRO"
  }

  const PositiveSynonyms: set<string> := {"POSITIVO", "POSITIVE", "POS", "1"}
  const NegativeSynonyms: set<string> := {"NEGATIVO", "NEGATIVE", "NEG", "0"}

  /** The key `fromLabel` switches on: the label trimmed, then upper-cased. */
  function Normalize(raw: string): string {
    Upper(Trim(raw, IsJavaTrimmable))
  }

  /** The `switch` of `fromLabel`, on an already normalised key. */
  function FromKey(key: string): Sentimento {
    if key in PositiveSynonyms then Positivo
    else if key in NegativeSynonyms then Negativo
    else Neutro
  }

  /** `Sentimento.fromLabel`: null gives `Neutro`, any other label is trimmed and
      upper-cased before the synonym lookup; unrecognised labels give `Neutro`,
      so the function is total. */
  function FromLabel(raw: Option<string>): (r: Sentimento)
    ensures raw.None? ==> r == Neutro
  {
    match raw
    case None => Neutro
    case Some(l) => FromKey(Normalize(l))
  }

  /** A label with no surrounding whitespace is only upper-cased by `Normalize`. */
  lemma NormalizeUnpadded(l: string)
    requires l != [] && !IsJavaTrimmable(l[0]) && !IsJavaTrimmable(l[|l| - 1])
    ensures Normalize(l) == Upper(l)
  {
    TrimUnique(l, IsJavaTrimmable, 0, |l|);
    assert l[0..|l|] == l;
  }

  /** A label without surrounding whitespace is looked up by its upper-cased form. */
  lemma FromLabelOfKey(l: string, key: string)
    requires l != [] && !IsJavaTrimmable(l[0]) && !IsJavaTrimmable(l[|l| - 1])
    requires Upper(l) == key
    ensures FromLabel(Some(l)) == FromKey(key)
  {
    NormalizeUnpadded(l);
  }

  /** Every display label normalises back to its own sentiment. */
  lemma FromLabelGetLabel(s: Sentimento)
    ensures FromLabel(Some(GetLabel(s))) == s
  {
    match s
    case Positivo =>
      assert Upper("Positivo") == "POSITIVO" by {}
      FromLabelOfKey("Positivo", "POSITIVO");
    case Negativo =>
      assert Upper("Negativo") == "NEGATIVO" by {}
      FromLabelOfKey("Negativo", "NEGATIVO");
    case Neutro =>
      assert Upper("Neutro") == "NEUTRO" by {}
      FromLabelOfKey("Neutro", "NEUTRO");
  }

  /** Every enum constant name normalises back to its own sentiment as well. */
  lemma FromLabelName(s: Sentimento)
    ensures FromLabel(Some(Name(s))) == s
  {
    match s
    case Positivo =>
      assert Upper("POSITIVO") == "POSITIVO" by {}
      FromLabelOfKey("POSITIVO", "POSITIVO");
    case Negativo =>
      assert Upper("NEGATIVO") == "NEGATIVO" by {}
      FromLabelOfKey("NEGATIVO", "NEGATIVO");
    case Neutro =>
      assert Upper("NEUTRO") == "NEUTRO" by {}
      FromLabelOfKey("NEUTRO", "NEUTRO");
  }

  /** The normaliser depends on the label only through its upper-cased form. */
  lemma NormalizeCaseInsensitive(l1: string, l2: string)
    requires Upper(l1) == Upper(l2)
    ensures Normalize(l1) == Normalize(l2)
  {
    UpperTrimCommute(l1);
    UpperTrimCommute(l2);
  }

  /** Labels that agree up to ASCII letter case map to the same sentiment. */
  lemma FromLabelCaseInsensitive(l1: string, l2: string)
    requires Upper(l1) == Upper(l2)
    ensures FromLabel(Some(l1)) == FromLabel(Some(l2))
  {
    NormalizeCaseInsensitive(l1, l2);
  }

  /** Leading and trailing whitespace (anything up to U+0020) is ignored. */
  lemma FromLabelIgnoresPadding(w1: string, l: string, w2: string)
    requires forall i :: 0 <= i < |w1| ==> IsJavaTrimmable(w1[i])
    requires forall i :: 0 <= i < |w2| ==> IsJavaTrimmable(w2[i])
    ensures FromLabel(Some(w1 + l + w2)) == FromLabel(Some(l))
  {
    TrimPadded(w1, l, w2, IsJavaTrimmable);
  }

  /** Whatever padding surrounds a label that starts and ends with a visible
      character, the label is looked up by its upper-cased form. */
  lemma FromLabelRecognises(w1: string, l: string, w2: string)
    requires forall i :: 0 <= i < |w1| ==> IsJavaTrimmable(w1[i])
    requires forall i :: 0 <= i < |w2| ==> IsJavaTrimmable(w2[i])
    requires l != [] && !IsJavaTrimmable(l[0]) && !IsJavaTrimmable(l[|l| - 1])
    ensures FromLabel(Some(w1 + l + w2)) == FromKey(Upper(l))
  {
    FromLabelIgnoresPadding(w1, l, w2);
    FromLabelOfKey(l, Upper(l));
  }

  /** The documented padded example: `" positivo "` is `Positivo`. */
  lemma FromLabelPaddedExample()
    ensures FromLabel(Some(" positivo ")) == Positivo
  {
    var w := " ";
    var l := "positivo";
    assert w + l + w == " positivo " by {}
    assert IsJavaTrimmable(w[0]) by {}
    assert !IsJavaTrimmable(l[0]) && !IsJavaTrimmable(l[|l| - 1]) by {}
    assert Upper(l) == "POSITIVO" by {}
    FromLabelRecognises(w, l, w);
  }

  /** The digit synonyms: `"1"` is `Positivo` and `"0"` is `Negativo`. */
  lemma FromLabelDigitExamples()
    ensures FromLabel(Some("1")) == Positivo
    ensures FromLabel(Some("0")) == Negativo
  {
    assert FromLabel(Some("1")) == Positivo by {
      assert Upper("1") == "1" by {}
      FromLabelOfKey("1", "1");
    }
    assert FromLabel(Some("0")) == Negativo by {
      assert Upper("0") == "0" by {}
      FromLabelOfKey("0", "0");
    }
  }

  /** The empty label and an unknown label give `Neutro`. */
  lemma FromLabelUnknownExamples()
    ensures FromLabel(Some("")) == Neutro
    ensures FromLabel(Some("unknown")) == Neutro
  {
    TrimUnique("", IsJavaTrimmable, 0, 0);
    assert FromLabel(Some("unknown")) == Neutro by {
      assert Upper("unknown") == "UNKNOWN" by {}
      FromLabelOfKey("unknown", "UNKNOWN");
    }
  }
}

=== FILE: stats.dfy ===
/** The global statistics of the public sentiment API (`StatsService`):
    counts per sentiment, percentages rounded half-up to two decimals, and
    averages that default to 0 when the database has nothing to average. */
module Stats {
  import opened Common
  import opened Sentimentos
  import opened SentimentApi

  datatype StatsResponse = StatsResponse(
    totalAnalises: nat,
    positivos: nat,
    negativos: nat,
    neutros: nat,
    percentualPositivos: real,
    percentualNegativos: real,
    percentualNeutros: real,
    probabilidadeMediaPositivos: real,
    probabilidadeMediaNegativos: real,
    tempoMedioProcessamentoMs: real)

  /** Java's `Math.round` on a (finite) double: the nearest integer, halves
      rounded up. */
  function Round(y: real): (k: int)
    ensures y - 0.5 < k as real <= y + 0.5
  {
    (y + 0.5).Floor
  }

  /** `calcularPercentual`: 0 for a zero total; otherwise `parte / total` as a
      percentage, rounded half-up to two decimals. The result is a whole number
      of hundredths within half a hundredth of the exact percentage. */
  function CalcularPercentual(parte: int, total: int): (r: real)
    ensures total == 0 ==> r == 0.0
    ensures (r * 100.0).Floor as real == r * 100.0
    ensures total != 0 ==>
      var exato := parte as real / total as real * 100.0;
      exato - 0.005 < r <= exato + 0.005
  {
    if total == 0 then 0.0
    else Round(parte as real / total as real * 10000.0) as real / 100.0
  }

  /** The characterisation above is complete: the percentage is the only whole
      number of hundredths in that half-open window. */
  lemma CalcularPercentualUnique(parte: int, total: int, k: int)
    requires total != 0
    requires var exato := parte as real / total as real * 100.0;
      exato - 0.005 < k as real / 100.0 <= exato + 0.005
    ensures CalcularPercentual(parte, total) == k as real / 100.0
  {
    var y := parte as real / total as real * 10000.0;
    var m := Round(y);
    assert y - 0.5 < k as real <= y + 0.5;
    assert y - 0.5 < m as real <= y + 0.5;
    assert k == m;
  }

  /** A share of a positive total is a percentage between 0 and 100. */
  lemma CalcularPercentualBounds(parte: int, total: int)
    requires 0 <= parte <= total && total > 0
    ensures 0.0 <= CalcularPercentual(parte, total) <= 100.0
  {
    var q := parte as real / total as real;
    assert 0.0 <= q <= 1.0 by {
      assert parte as real <= total as real;
    }
    var m := Round(q * 10000.0);
    assert 0 <= m <= 10000;
  }

  /** The documented example: 3 of 4 is 75.00 and 1 of 4 is 25.00. */
  lemma CalcularPercentualExample()
    ensures CalcularPercentual(3, 4) == 75.0
    ensures CalcularPercentual(1, 4) == 25.0
  {
    assert Round(7500.0) == 7500;
    assert Round(2500.0) == 2500;
  }

  function Sum(xs: seq<real>): real {
    if xs == [] then 0.0 else xs[0] + Sum(xs[1..])
  }

  /** SQL `AVG`: null (here `None`) over no rows, the mean otherwise. */
  function Media(xs: seq<real>): (m: Option<real>)
    ensures m.None? <==> xs == []
  {
    if xs == [] then None else Some(Sum(xs) / |xs| as real)
  }

  /** Analyses with sentiment `s`. */
  function ComSentimento(s: Sentimento): AnaliseResultado -> bool {
    (a: AnaliseResultado) => a.sentimento == s
  }

  /** Every analysis has exactly one of the three sentiments, so the three
      counts add up to the number of analyses. */
  lemma {:induction false} CountsAddUp(xs: seq<AnaliseResultado>)
    ensures Count(xs, ComSentimento(Positivo)) + Count(xs, ComSentimento(Negativo))
          + Count(xs, ComSentimento(Neutro)) == |xs|
  {
    if xs != [] {
      CountsAddUp(xs[1..]);
    }
  }

  /** The probabilities of the analyses with sentiment `s`. */
  function Probabilidades(xs: seq<AnaliseResultado>, s: Sentimento): (ps: seq<real>)
    ensures |ps| == Count(xs, ComSentimento(s))
  {
    if xs == [] then []
    else (if xs[0].sentimento == s then [xs[0].probabilidade] else []) + Probabilidades(xs[1..], s)
  }

  /** The recorded processing times (rows where it is null are skipped). */
  function Tempos(xs: seq<AnaliseResultado>): (ts: seq<real>)
    ensures |ts| <= |xs|
  {
    if xs == [] then []
    else
      var t := xs[0].tempoProcessamentoMs;
      (if t.Some? then [t.value as real] else []) + Tempos(xs[1..])
  }

  const Zero: StatsResponse := StatsResponse(0, 0, 0, 0, 0.0, 0.0, 0.0, 0.0, 0.0, 0.0)

  /** `getStats`: all zeros when nothing is stored; otherwise the per-sentiment
      counts, which add up to the total, their percentages of the total, and the
      averages, each reported as 0.0 when there is nothing to average. */
  function GetStats(analises: seq<AnaliseResultado>): (r: StatsResponse)
    ensures analises == [] ==> r == Zero
    ensures r.totalAnalises == |analises|
    ensures r.positivos + r.negativos + r.neutros == r.totalAnalises
    ensures r.positivos == Count(analises, ComSentimento(Positivo))
    ensures r.negativos == Count(analises, ComSentimento(Negativo))
    ensures r.neutros == Count(analises, ComSentimento(Neutro))
    ensures r.percentualPositivos == CalcularPercentual(r.positivos, r.totalAnalises)
    ensures r.percentualNegativos == CalcularPercentual(r.negativos, r.totalAnalises)
    ensures r.percentualNeutros == CalcularPercentual(r.neutros, r.totalAnalises)
    ensures 0.0 <= r.percentualPositivos <= 100.0 && 0.0 <= r.percentualNegativos <= 100.0
    ensures 0.0 <= r.percentualNeutros <= 100.0
    ensures r.positivos == 0 ==> r.probabilidadeMediaPositivos == 0.0
    ensures r.negativos == 0 ==> r.probabilidadeMediaNegativos == 0.0
    ensures r.positivos > 0 ==> Some(r.probabilidadeMediaPositivos) == Media(Probabilidades(analises, Positivo))
    ensures r.negativos > 0 ==> Some(r.probabilidadeMediaNegativos) == Media(Probabilidades(analises, Negativo))
    ensures r.tempoMedioProcessamentoMs == Media(Tempos(analises)).GetOr(0.0)
  {
    var total := |analises|;
    if total == 0 then Zero
    else
      var positivos := Count(analises, ComSentimento(Positivo));
      var negativos := Count(analises, ComSentimento(Negativo));
      var neutros := Count(analises, ComSentimento(Neutro));
      CountsAddUp(analises);
      CalcularPercentualBounds(positivos, total);
      CalcularPercentualBounds(negativos, total);
      CalcularPercentualBounds(neutros, total);
      StatsResponse(
        total, positivos, negativos, neutros,
        CalcularPercentual(positivos, total),
        CalcularPercentual(negativos, total),
        CalcularPercentual(neutros, total),
        Media(Probabilidades(analises, Positivo)).GetOr(0.0),
        Media(Probabilidades(analises, Negativo)).GetOr(0.0),
        Media(Tempos(analises)).GetOr(0.0))
  }

  /** Three positive analyses and one negative give 75.00% and 25.00%. */
  lemma GetStatsExample(analises: seq<AnaliseResultado>)
    requires |analises| == 4
    requires analises[0].sentimento == Positivo && analises[1].sentimento == Positivo
    requires analises[2].sentimento == Positivo && analises[3].sentimento == Negativo
    ensures GetStats(analises).percentualPositivos == 75.0
    ensures GetStats(analises).percentualNegativos == 25.0
    ensures GetStats(analises).percentualNeutros == 0.0
  {
    var p := ComSentimento(Positivo);
    var n := ComSentimento(Negativo);
    assert Count(analises[3..], p) == 0 && Count(analises[3..], n) == 1;
    assert Count(analises[2..], p) == 1 && Count(analises[2..], n) == 1;
    assert Count(analises[1..], p) == 2 && Count(analises[1..], n) == 1;
    assert Count(analises, p) == 3 && Count(analises, n) == 1;
    CountsAddUp(analises);
    CalcularPercentualExample();
    assert Round(0.0) == 0;
  }
}

=== FILE: text.dfy ===
/** The string operations the label normaliser and the heuristic classifier rely on.

    Case mapping is ASCII-only: Java's `toUpperCase()` and Python's `lower()`
    are modelled on the letters `A`..`Z` / `a`..`z` and leave every other
    character alone. Trimming is parameterised by the whitespace predicate,
    because Java's `String.trim()` and Python's `str.strip()` disagree on it. */
module Text {

  /** Characters removed by Java's `String.trim()`: every code point up to U+0020. */
  predicate IsJavaTrimmable(c: char) {
    c <= ' '
  }

  /** Characters removed by Python's `str.strip()`, restricted to the ASCII range:
      tab, line feed, vertical tab, form feed, carriage return, the four
      information separators U+001C..U+001F and space. */
  predicate IsPythonSpace(c: char) {
    c == ' ' || ('\t' <= c <= '\r') || ('\U{1C}' <= c <= '\U{1F}')
  }

  function UpperChar(c: char): (u: char) {
    if 'a' <= c <= 'z' then c - ('a' - 'A') else c
  }

  function LowerChar(c: char): (l: char) {
    if 'A' <= c <= 'Z' then c + ('a' - 'A') else c
  }

  /** Java's `toUpperCase()`, on ASCII letters. */
  function Upper(s: string): (r: string) {
    seq(|s|, i requires 0 <= i < |s| => UpperChar(s[i]))
  }

  /** Python's `lower()`, on ASCII letters. */
  function Lower(s: string): (r: string) {
    seq(|s|, i requires 0 <= i < |s| => LowerChar(s[i]))
  }

  /** Length of the longest prefix of `s` made of `ws` characters. */
  function LeadLen(s: string, ws: char -> bool): (n: nat)
    ensures n <= |s|
    ensures forall i :: 0 <= i < n ==> ws(s[i])
    ensures n < |s| ==> !ws(s[n])
  {
    if |s| > 0 && ws(s[0]) then 1 + LeadLen(s[1..], ws) else 0
  }

  /** Length of the longest suffix of `s` made of `ws` characters. */
  function TrailLen(s: string, ws: char -> bool): (n: nat)
    ensures n <= |s|
    ensures forall i :: |s| - n <= i < |s| ==> ws(s[i])
    ensures n < |s| ==> !ws(s[|s| - 1 - n])
  {
    if |s| > 0 && ws(s[|s| - 1]) then 1 + TrailLen(s[..|s| - 1], ws) else 0
  }

  /** `s` without its leading and trailing `ws` characters: the result is the
      slice starting at the first non-`ws` character, everything outside it is
      `ws`, and the result neither starts nor ends with a `ws` character. */
  function Trim(s: string, ws: char -> bool): (r: string)
    ensures LeadLen(s, ws) + |r| <= |s|
    ensures r == s[LeadLen(s, ws)..LeadLen(s, ws) + |r|]
    ensures forall i :: LeadLen(s, ws) + |r| <= i < |s| ==> ws(s[i])
    ensures r == [] || (!ws(r[0]) && !ws(r[|r| - 1]))
  {
    var t := s[LeadLen(s, ws)..];
    t[..|t| - TrailLen(t, ws)]
  }

  /** Any slice with the trimming properties is the trimmed string: `Trim` is
      determined by where the non-whitespace text starts and ends. */
  lemma TrimUnique(s: string, ws: char -> bool, a: nat, b: nat)
    requires a <= b <= |s|
    requires forall i :: 0 <= i < a ==> ws(s[i])
    requires forall i :: b <= i < |s| ==> ws(s[i])
    requires a == b || (!ws(s[a]) && !ws(s[b - 1]))
    ensures Trim(s, ws) == s[a..b]
  {
    var n := LeadLen(s, ws);
    var r := Trim(s, ws);
    if a == b {
    } else {
      assert n == a;
      assert r[0] == s[a];
      assert r[|r| - 1] == s[a + |r| - 1];
      assert a + |r| == b;
    }
  }

  /** Padding `s` with whitespace keeps its slice `s[a..b]` and adds only
      whitespace around it. */
  lemma PaddedSlice(w1: string, s: string, w2: string, ws: char -> bool, a: nat, b: nat)
    requires forall i :: 0 <= i < |w1| ==> ws(w1[i])
    requires forall i :: 0 <= i < |w2| ==> ws(w2[i])
    requires a <= b <= |s|
    requires forall i :: 0 <= i < a ==> ws(s[i])
    requires forall i :: b <= i < |s| ==> ws(s[i])
    ensures var t := w1 + s + w2;
      (forall i :: 0 <= i < |w1| + a ==> ws(t[i])) &&
      (forall i :: |w1| + b <= i < |t| ==> ws(t[i])) &&
      t[|w1| + a..|w1| + b] == s[a..b]
  {
    var t := w1 + s + w2;
    forall i | 0 <= i < |w1| + a
      ensures ws(t[i])
    {
      if i < |w1| {
        assert t[i] == w1[i];
      } else {
        assert t[i] == s[i - |w1|];
      }
    }
    forall i | |w1| + b <= i < |t|
      ensures ws(t[i])
    {
      if i < |w1| + |s| {
        assert t[i] == s[i - |w1|];
      } else {
        assert t[i] == w2[i - |w1| - |s|];
      }
    }
    assert forall i :: 0 <= i < b - a ==> t[|w1| + a..|w1| + b][i] == s[a..b][i];
  }

  /** Surrounding whitespace does not change the trimmed text. */
  lemma TrimPadded(w1: string, s: string, w2: string, ws: char -> bool)
    requires forall i :: 0 <= i < |w1| ==> ws(w1[i])
    requires forall i :: 0 <= i < |w2| ==> ws(w2[i])
    ensures Trim(w1 + s + w2, ws) == Trim(s, ws)
  {
    var t := w1 + s + w2;
    var a0, b0 := TrimShape(s, ws);
    PaddedSlice(w1, s, w2, ws, a0, b0);
    var a, b := |w1| + a0, |w1| + b0;
    if a < b {
      assert t[a] == s[a0..b0][0] && t[b - 1] == s[a0..b0][b0 - a0 - 1];
    }
    TrimUnique(t, ws, a, b);
    assert Trim(t, ws) == t[a..b] == s[a0..b0] == Trim(s, ws);
  }



  lemma UpperCharKeepsTrimmable(c: char)
    ensures IsJavaTrimmable(UpperChar(c)) <==> IsJavaTrimmable(c)
  {
  }

  /** Upper-casing a slice is slicing the upper-cased string. */
  lemma UpperSlice(s: string, i: nat, j: nat)
    requires i <= j <= |s|
    ensures Upper(s[i..j]) == Upper(s)[i..j]
  {
  }

  /** Upper-casing keeps every character's `IsJavaTrimmable` status. */
  lemma UpperKeepsTrimmable(s: string)
    ensures |Upper(s)| == |s|
    ensures forall i :: 0 <= i < |s| ==> (IsJavaTrimmable(Upper(s)[i]) <==> IsJavaTrimmable(s[i]))
  {
    forall i | 0 <= i < |s|
      ensures IsJavaTrimmable(Upper(s)[i]) <==> IsJavaTrimmable(s[i])
    {
      UpperCharKeepsTrimmable(s[i]);
    }
  }

  /** The trimmed string is the slice `s[a..b]` with only whitespace outside
      it and a non-whitespace character at each end. */
  lemma TrimShape(s: string, ws: char -> bool) returns (a: nat, b: nat)
    ensures a <= b <= |s| && Trim(s, ws) == s[a..b]
    ensures a == LeadLen(s, ws)
    ensures forall i :: 0 <= i < a ==> ws(s[i])
    ensures forall i :: b <= i < |s| ==> ws(s[i])
    ensures a == b || (!ws(s[a]) && !ws(s[b - 1]))
  {
    var r := Trim(s, ws);
    a := LeadLen(s, ws);
    b := a + |r|;
    if a < b {
      assert r[0] == s[a] && r[|r| - 1] == s[b - 1];
    }
  }

  /** Upper-casing changes no `IsJavaTrimmable` character into a non-trimmable one
      or back, so it commutes with Java's trim. */
  lemma UpperTrimCommute(s: string)
    ensures Upper(Trim(s, IsJavaTrimmable)) == Trim(Upper(s), IsJavaTrimmable)
  {
    var a, b := TrimShape(s, IsJavaTrimmable);
    var u := Upper(s);
    UpperKeepsTrimmable(s);
    assert forall i :: 0 <= i < a ==> IsJavaTrimmable(u[i]);
    assert forall i :: b <= i < |u| ==> IsJavaTrimmable(u[i]);
    assert a == b || (!IsJavaTrimmable(u[a]) && !IsJavaTrimmable(u[b - 1]));
    TrimUnique(u, IsJavaTrimmable, a, b);
    UpperSlice(s, a, b);
  }

  /** `m` occurs in `s` at position `k`. */
  predicate OccursAt(s: string, m: string, k: int) {
    0 <= k && k + |m| <= |s| && s[k..k + |m|] == m
  }

  /** Python's `m in s`, scanning left to right. */
  function Contains(s: string, m: string): (b: bool)
    decreases |s|
  {
    if |m| > |s| then false
    else if s[..|m|] == m then true
    else Contains(s[1..], m)
  }

  /** The scan finds `m` exactly when `m` occurs at some position of `s`. */
  lemma {:induction false} ContainsIff(s: string, m: string)
    ensures Contains(s, m) <==> exists k :: OccursAt(s, m, k)
    decreases |s|
  {
    if |m| > |s| {
      forall k | OccursAt(s, m, k) ensures false { }
    } else if s[..|m|] == m {
      assert OccursAt(s, m, 0);
    } else {
      ContainsIff(s[1..], m);
      if exists k :: OccursAt(s[1..], m, k) {
        var k :| OccursAt(s[1..], m, k);
        assert s[1..][k..k + |m|] == s[k + 1..k + 1 + |m|];
        assert OccursAt(s, m, k + 1);
      }
      if exists k :: OccursAt(s, m, k) {
        var k :| OccursAt(s, m, k);
        assert k != 0;
        assert s[1..][k - 1..k - 1 + |m|] == s[k..k + |m|];
        assert OccursAt(s[1..], m, k - 1);
      }
    }
  }

  /** Lower-casing maps `IsPythonSpace` characters to themselves and every other
      character to a non-space. */
  lemma LowerKeepsSpaces(c: char)
    ensures IsPythonSpace(LowerChar(c)) <==> IsPythonSpace(c)
  {
  }

  /** Lower-casing a slice is slicing the lower-cased string. */
  lemma LowerSlice(s: string, i: nat, j: nat)
    requires i <= j <= |s|
    ensures Lower(s[i..j]) == Lower(s)[i..j]
  {
  }

  /** An occurrence inside the slice `s[a..b]` is an occurrence in `s`, shifted by `a`. */
  lemma OccursInSlice(s: string, a: nat, b: nat, m: string, k: int)
    requires a <= b <= |s|
    requires OccursAt(s[a..b], m, k)
    ensures OccursAt(s, m, a + k)
  {
    forall i | 0 <= i < |m|
      ensures s[a + k..a + k + |m|][i] == m[i]
    {
      assert s[a..b][k..k + |m|][i] == m[i];
    }
  }

  /** An occurrence in `s` that lies within `[a, b)` is an occurrence in the slice. */
  lemma OccursInside(s: string, a: nat, b: nat, m: string, k: int)
    requires a <= b <= |s|
    requires OccursAt(s, m, k) && a <= k && k + |m| <= b
    ensures OccursAt(s[a..b], m, k - a)
  {
    forall i | 0 <= i < |m|
      ensures s[a..b][k - a..k - a + |m|][i] == m[i]
    {
      assert s[k..k + |m|][i] == m[i];
    }
  }

  /** Lower-casing the stripped text is slicing the lower-cased text. */
  lemma LowerStripSlice(t: string) returns (a: nat, b: nat)
    ensures a <= b <= |t| && Lower(Trim(t, IsPythonSpace)) == Lower(t)[a..b]
    ensures forall i :: 0 <= i < a ==> IsPythonSpace(t[i])
    ensures forall i :: b <= i < |t| ==> IsPythonSpace(t[i])
  {
    a, b := TrimShape(t, IsPythonSpace);
    LowerSlice(t, a, b);
  }

  /** An occurrence of a marker that neither starts nor ends with whitespace
      lies entirely within the part of the text that stripping keeps. */
  lemma MarkerWithinStrip(t: string, m: string, k: int, a: nat, b: nat)
    requires |m| > 0 && !IsPythonSpace(m[0]) && !IsPythonSpace(m[|m| - 1])
    requires OccursAt(Lower(t), m, k)
    requires a <= b <= |t|
    requires forall i :: 0 <= i < a ==> IsPythonSpace(t[i])
    requires forall i :: b <= i < |t| ==> IsPythonSpace(t[i])
    ensures a <= k && k + |m| <= b
  {
    var lt := Lower(t);
    var e := k + |m| - 1;
    assert lt[k] == m[0] && lt[e] == m[|m| - 1] by {
      assert lt[k..k + |m|][0] == m[0];
      assert lt[k..k + |m|][|m| - 1] == m[|m| - 1];
    }
    LowerKeepsSpaces(t[k]);
    LowerKeepsSpaces(t[e]);
  }

  /** An occurrence in the stripped text is an occurrence in the whole text. */
  lemma StripOccurrenceIsOccurrence(t: string, m: string)
    requires Contains(Lower(Trim(t, IsPythonSpace)), m)
    ensures Contains(Lower(t), m)
  {
    var a, b := LowerStripSlice(t);
    var lt := Lower(t);
    ContainsIff(lt[a..b], m);
    var k :| OccursAt(lt[a..b], m, k);
    OccursInSlice(lt, a, b, m, k);
    ContainsIff(lt, m);
  }

  /** An occurrence of an unpadded marker in the whole text is one in the
      stripped text. */
  lemma OccurrenceSurvivesStrip(t: string, m: string)
    requires |m| > 0 && !IsPythonSpace(m[0]) && !IsPythonSpace(m[|m| - 1])
    requires Contains(Lower(t), m)
    ensures Contains(Lower(Trim(t, IsPythonSpace)), m)
  {
    var a, b := LowerStripSlice(t);
    var lt := Lower(t);
    ContainsIff(lt, m);
    var k :| OccursAt(lt, m, k);
    MarkerWithinStrip(t, m, k, a, b);
    OccursInside(lt, a, b, m, k);
    ContainsIff(lt[a..b], m);
  }

  /** A marker that neither starts nor ends with whitespace occurs in the
      lower-cased stripped text exactly when it occurs in the lower-cased text:
      stripping only removes whitespace, and no occurrence of such a marker can
      overlap the removed part. */
  lemma StripPreservesMarker(t: string, m: string)
    requires |m| > 0 && !IsPythonSpace(m[0]) && !IsPythonSpace(m[|m| - 1])
    ensures Contains(Lower(Trim(t, IsPythonSpace)), m) <==> Contains(Lower(t), m)
  {
    if Contains(Lower(Trim(t, IsPythonSpace)), m) {
      StripOccurrenceIsOccurrence(t, m);
    }
    if Contains(Lower(t), m) {
      OccurrenceSurvivesStrip(t, m);
    }
  }
}
